=== FILE: README.md ===
# Incremental evaluation of equation trees (diffpy.srfit) in Dafny

This project models the evaluation engine of diffpy.srfit's equation
package. An equation is a tree of Arguments (leaf values), Partitions
(multi-part values with tags and a `combine` reduction), Generators and
Operators. The Evaluator visitor computes the tree's value bottom-up.

- **Incremental recomputation.** An operator is recomputed only when its
  clicker (version stamp) is newer than the evaluator's own clicker. In
  every other case the proxy the operator cached earlier stands in for it.
- **Partition propagation.** The evaluation helper decides what an
  operation does from how many of its arguments are partitions:
  - **none:** apply the operation once;
  - **one:** apply it part by part to the parts the operator's tags select;
  - **several:** first reduce each partition with its own `combine`.
- **Combination.** A partition-shaped result is reduced at the traversal
  root, or at an operator that may combine. Otherwise it travels upward
  inside a partition-like proxy.
- **Operator contract.** The model also covers the operator's constructor
  and mutators, and the arity, flag and operation settings of the library
  operators the engine treats specially.

The model is functional. The tree is an immutable datatype
(`Literals.Node`, `Literals.Operator`). The proxies live in an arena
indexed by operator id (`Proxies.Arena`). The process-wide click counter
is an explicit value (`Clickers.Counter`). A traversal is a pure function
of the node and a `State`, which holds four things:

- the evaluator's value;
- the horizon, which is the number of the evaluator's clicker;
- the root flag and the partition-mode flag;
- the arena, plus a trace of the operators recomputed so far.

Operations are opaque parameters of type `seq<V> -> Option<V>`, where
`None` means the Python call raises. A partition's `combine` is an opaque
`seq<V> -> V`.

Modules: `Results` (Option, Result, the faults a traversal can raise),
`Clickers`, `Partitions`, `Literals`, `Proxies`, `Operators`, `Helper` and
`Evaluator`.

Points where the model follows the code closely:

- On the fast path in partition mode, the evaluator's value is left as it
  was. The line that would read the proxy is commented out
  (evaluator.py:123-124).
- In no-partition mode, the root flag is not cleared before an operator's
  arguments are visited. Only after them is it cleared (evaluator.py:128-146).
- The convolution result is resized with the array's own `resize` method,
  which fills with zeros (operators.py:241).
- `addTags` does not add tags as written (see Findings).

## Model

| member | source | states |
|---|---|---|
| Clickers.Click | diffpy/srfit/equation/visitors/evaluator.py:85-89 | a click hands out a version newer than every version issued before, and the counter remembers it |
| Clickers.Effective | diffpy/srfit/equation/literals/operators.py:96-105 | a clicker's effective version is at least its own number and at least every subject's, and equals one of them (the maximum) |
| Literals.OpVersionBoundsArgs | diffpy/srfit/equation/literals/operators.py:103-104 | because every argument's clicker is a subject, an operator is never older than any argument or than its own clicker |
| Literals.DescendantVersionBounded | diffpy/srfit/equation/literals/operators.py:103-104 | transitively, an operator is never older than any operator reached through operator arguments |
| Literals.IssuedBound | diffpy/srfit/equation/visitors/evaluator.py:85-89 | when every clicker number in a tree came from the counter, no effective version exceeds the newest one issued, so one evaluator click passes them all |
| Partitions.AllIndices | diffpy/srfit/equation/visitors/evaluator.py:299 | the fallback index set contains exactly the positions of the part list |
| Partitions.SelectIndices | diffpy/srfit/equation/visitors/evaluator.py:292-301 | the selection loop gives every index when the operator has no tags; otherwise it gives exactly the indices one of its tags maps to, where a tag missing from the tag map contributes nothing and an empty result stays empty |
| Proxies.AsPartition | diffpy/srfit/equation/visitors/evaluator.py:188-194 | a partition-shaped result carries the source partition's combine, tags and tag map with the new part values |
| Proxies.SlotOf | diffpy/srfit/equation/visitors/evaluator.py:187-201 | a plain outcome is cached in an Argument-like proxy and a partition outcome in a pseudo-partition; an enclosing operator reads the outcome back from either |
| Proxies.Store | diffpy/srfit/equation/visitors/evaluator.py:187-201 | caching an outcome for one operator makes it read back exactly that outcome; no other operator's proxy changes; the corrected update, see Findings |
| Proxies.OverwriteInPlace | diffpy/srfit/equation/visitors/evaluator.py:188-201 | the update as written: allocate only when there is no proxy; otherwise keep the object, whose class decides what it presents; other proxies are untouched |
| Proxies.InPlaceOverwriteHidesPartition | diffpy/srfit/equation/visitors/evaluator.py:188-201 | an Argument proxy given a partition result keeps presenting its old plain value (counterexample) |
| Proxies.InPlaceOverwriteHidesValue | diffpy/srfit/equation/visitors/evaluator.py:188-202 | a pseudo-partition proxy given a plain result keeps presenting its old parts (counterexample) |
| Proxies.InPlaceAgreesWhenShapeKept | diffpy/srfit/equation/visitors/evaluator.py:188-201 | when the result keeps the proxy's shape, the in-place update and the corrected update agree |
| Operators.NewOperator | diffpy/srfit/equation/literals/operators.py:75-89 | a new operator has no arguments, its tags as a set, may-combine off and the given arity; it is exactly as new as its fresh clicker |
| Operators.NewOperatorDefaults | diffpy/srfit/equation/literals/operators.py:75-76 | by default an operator takes two inputs, gives one output and has no tags |
| Operators.AddLiteral | diffpy/srfit/equation/literals/operators.py:96-105 | the literal becomes the last argument and earlier arguments keep their positions; id, tags, flag, operation and arity are kept; the operator becomes at least as new as the literal and as it was before |
| Operators.EffectiveOfPrefix | diffpy/srfit/equation/literals/operators.py:104 | registering one more subject never makes a clicker's effective version smaller |
| Operators.Invalidate | diffpy/srfit/equation/literals/operators.py:117-118 | invalidation removes the operator's proxy and nothing else from the arena, keeps the operator's id, arguments, tags, flag, operation and arity; its clicker becomes newer than every version issued so far |
| Operators.SetCombine | diffpy/srfit/equation/literals/operators.py:107-119 | the flag defaults to true; setting it to its current value changes nothing; otherwise the flag is set, the operator's proxy and only it is dropped, id, arguments, tags, operation and arity are kept, and the operator becomes newer than all issued versions, which the counter records |
| Operators.SetCombineDefaultEnables | diffpy/srfit/equation/literals/operators.py:107-119 | called without a flag, `setCombine` enables combining; the counter records the new version when it changes anything |
| Operators.AddTagsAsWritten | diffpy/srfit/equation/literals/operators.py:121-126 | as written: the tag set is unchanged, yet the operator's proxy and only it is dropped and the clicker clicked, the counter recording the new version; id, arguments, flag, operation and arity are kept |
| Operators.AddTagsAsWrittenSelectsEverything | diffpy/srfit/equation/literals/operators.py:121-126 | as written, asking a tagless operator to act on tag "b" leaves it acting on all three parts of the example partition (counterexample) |
| Operators.AddTags | diffpy/srfit/equation/literals/operators.py:121-126 | the documented behaviour: the tag set becomes the old tags plus the new ones; the operator's proxy and only it is dropped, the clicker clicked and the counter records the new version; id, arguments, flag, operation and arity are kept |
| Operators.AddTagsSelectsTaggedParts | diffpy/srfit/equation/literals/operators.py:121-126 | with tags really added, the same request selects part 2 alone |
| Operators.ClearTags | diffpy/srfit/equation/literals/operators.py:128-133 | no tags remain, the operator's proxy and only it is dropped, id, arguments, flag, operation and arity are kept, and the operator becomes newer than all issued versions, which the counter records |
| Operators.Identity | diffpy/srfit/equation/literals/operators.py:297 | the identity succeeds exactly on one argument and returns it |
| Operators.CombineOperator | diffpy/srfit/equation/literals/operators.py:284-299 | one input, one output, may-combine set, no tags |
| Operators.CombineOperatorIsIdentity | diffpy/srfit/equation/literals/operators.py:297 | the combine operator's operation returns its single argument and raises on any other argument count |
| Operators.NegationOperator | diffpy/srfit/equation/literals/operators.py:210-220 | one input, one output, may-combine off, the supplied negation |
| Operators.SumOperator | diffpy/srfit/equation/literals/operators.py:248-259 | one input, one output, may-combine off, the supplied sum |
| Operators.ListOperator | diffpy/srfit/equation/literals/operators.py:301-315 | variadic, may-combine off |
| Operators.ListOperatorKeepsArguments | diffpy/srfit/equation/literals/operators.py:311-314 | the list operation never raises and packs exactly its arguments, in order |
| Operators.SetOperator | diffpy/srfit/equation/literals/operators.py:317-331 | variadic, may-combine off |
| Operators.SetOperatorIgnoresOrder | diffpy/srfit/equation/literals/operators.py:327-330 | the set operation depends only on which values were passed, not on their order or repetition |
| Operators.ArrayOperator | diffpy/srfit/equation/literals/operators.py:333-347 | variadic, may-combine off |
| Operators.Resize | diffpy/srfit/equation/literals/operators.py:241 | resizing yields exactly the requested length, keeps the leading elements and fills with zeros beyond the original |
| Operators.Convolve | diffpy/srfit/equation/literals/operators.py:238-242 | the convolution result has exactly the first argument's length and agrees with the scaled convolution wherever that is defined |
| Operators.ConvolutionOperator | diffpy/srfit/equation/literals/operators.py:222-245 | two inputs, one output, may-combine off, no tags; its operation is `Convolve` of its two arguments, raising on an empty vector |
| Operators.ConvolutionKeepsFirstLength | diffpy/srfit/equation/literals/operators.py:238-244 | the convolution operator succeeds exactly on two non-empty vectors (numpy's convolution rejects an empty one), and its result has the first argument's length and agrees with the scaled convolution wherever that is defined |
| Helper.Collect | diffpy/srfit/equation/visitors/evaluator.py:234-256 | an Argument is recorded as its value and a Partition as itself; a Generator is recorded as its literal; an operator is recorded as what its proxy presents, and raises exactly when there is no proxy or it is a bare value |
| Helper.NewOperatorHasNoProxy | diffpy/srfit/equation/literals/operators.py:88 | a new operator has no proxy: collecting it before it was ever evaluated raises |
| Helper.CollectReadsStoredOutcome | diffpy/srfit/equation/visitors/evaluator.py:253-256 | the helper collects an operator argument as exactly the outcome just cached for it; with no proxy it raises |
| Helper.PartIndices | diffpy/srfit/equation/visitors/evaluator.py:240-246 | the recorded positions are exactly the partition arguments' positions, in increasing order |
| Helper.NoPartitionsFound | diffpy/srfit/equation/visitors/evaluator.py:264 | without partition arguments, no position is recorded |
| Helper.SinglePartitionFound | diffpy/srfit/equation/visitors/evaluator.py:264-267 | with one partition argument, exactly its position is recorded |
| Helper.SeveralPartitionsFound | diffpy/srfit/equation/visitors/evaluator.py:270 | with two partition arguments, at least two positions are recorded |
| Helper.Substituted | diffpy/srfit/equation/visitors/evaluator.py:305-306 | the argument list has the given part value in the partition's slot and every other argument unchanged |
| Helper.EvaluateArgument | diffpy/srfit/equation/visitors/evaluator.py:279-282 | applying the operation once succeeds exactly when the operation does, with its value as a plain outcome |
| Helper.EvaluatePartition | diffpy/srfit/equation/visitors/evaluator.py:284-309 | with one partition argument: succeeds exactly when every selected index is a part position whose operation call succeeds; then a selected part becomes the operation on the arguments with that part substituted, any other part is unchanged, and the source and length are kept |
| Helper.Evaluate | diffpy/srfit/equation/visitors/evaluator.py:258-277 | unless exactly one argument is a partition, a successful evaluation is plain |
| Helper.PartsOutcomeFromSinglePartition | diffpy/srfit/equation/visitors/evaluator.py:264-268 | a partition-shaped outcome arises only from exactly one partition argument; its source is that partition and it has as many parts |
| Helper.ApplyToSelectedParts | diffpy/srfit/equation/visitors/evaluator.py:284-309 | the per-part loop, over the selected indices in any order and on a copy of the part list, succeeds exactly when the reference definition does, with the same result |
| Helper.CombineOutcome | diffpy/srfit/equation/visitors/evaluator.py:311-318 | combining leaves a plain outcome alone and always yields a plain outcome |
| Helper.Finish | diffpy/srfit/equation/visitors/evaluator.py:182-185 | at the root or with may-combine, a partition outcome is reduced with its source's combine; otherwise the outcome propagates unchanged |
| Helper.NoPartitionsAppliesOnce | diffpy/srfit/equation/visitors/evaluator.py:258-282 | with no partition argument, the outcome is the operation applied once to the argument values in positional order (or the operation's failure) |
| Helper.OnePartitionNoTagsTransformsAll | diffpy/srfit/equation/visitors/evaluator.py:284-307 | one partition and no tags: every part i becomes the operation on the arguments with part i's original value substituted; the source is unchanged and the length kept |
| Helper.OnePartitionTaggedTransformsSelected | diffpy/srfit/equation/visitors/evaluator.py:292-307 | one partition and tags: a part is transformed if and only if one of the operator's tags maps to it; all other parts pass through unchanged |
| Helper.OnePartitionNoMatchIsIdentity | diffpy/srfit/equation/visitors/evaluator.py:297-301 | tags that select nothing leave the part list exactly as it was |
| Helper.OnePartitionBadIndexRaises | diffpy/srfit/equation/visitors/evaluator.py:305-307 | a selected index past the end of the part list makes the evaluation raise |
| Helper.SeveralPartitionsReduceFirst | diffpy/srfit/equation/visitors/evaluator.py:270-281 | with two or more partitions, each is replaced by its own combine, the operation is applied once, and the outcome is plain |
| Helper.CombineOperatorPassesPlain | diffpy/srfit/equation/literals/operators.py:284-299 | the combine operator passes a plain argument through unchanged |
| Helper.CombineOperatorReducesPartition | diffpy/srfit/equation/visitors/evaluator.py:182-185 | the combine operator leaves the parts as they are and then always reduces them with the partition's combine, at the root or not |
| Helper.TagSelectsOnePart | diffpy/srfit/equation/visitors/evaluator.py:294-307 | with parts tagged a:{0,1}, b:{2} and operator tag b, incrementing changes part 2 only |
| Helper.NoTagsIncrementsAll | diffpy/srfit/equation/visitors/evaluator.py:297-299 | the same partition with no operator tags: all three parts are incremented |
| Helper.AbsentTagChangesNothing | diffpy/srfit/equation/visitors/evaluator.py:300-301 | the same partition with tag c, absent from the tag map: no part changes |
| Helper.TwoPartitionsAddCombined | diffpy/srfit/equation/visitors/evaluator.py:270-276 | adding two partitions gives the plain sum of their combined values |
| Evaluator.NewEvaluator | diffpy/srfit/equation/visitors/evaluator.py:63-83 | a new evaluator starts at the root, holds its initial value and processes partitions unless told otherwise |
| Evaluator.Click | diffpy/srfit/equation/visitors/evaluator.py:85-89 | clicking resets the root flag and moves the horizon past every issued version, keeping the value |
| Evaluator.Visit | diffpy/srfit/equation/visitors/evaluator.py:91-126 | a visit keeps the horizon and the mode and only extends the trace; a cleared root flag stays cleared; in partition mode only the first recomputation can see the root; whoever recomputes leaves the root |
| Evaluator.OnOperator | diffpy/srfit/equation/visitors/evaluator.py:111-126 | the same traversal invariants, and the root flag is always cleared afterwards |
| Evaluator.CreateProxy | diffpy/srfit/equation/visitors/evaluator.py:169-204 | a recomputation is recorded first, with the root flag it saw, and leaves an identifiable (Argument or pseudo-partition) proxy in the operator's slot |
| Evaluator.VisitArgs | diffpy/srfit/equation/visitors/evaluator.py:176-178 | visiting the arguments keeps the traversal invariants and collects one entry per argument, in order: an Argument contributes its value and a Partition itself, after what was collected before |
| Evaluator.OnOperatorNoParts | diffpy/srfit/equation/visitors/evaluator.py:128-146 | in no-partition mode the evaluator's value is always the bare value cached for the operator |
| Evaluator.RecomputeNoParts | diffpy/srfit/equation/visitors/evaluator.py:134-141 | a no-partition recomputation is recorded first and caches, as a bare value, the operation applied to the values its argument loop collected |
| Evaluator.VisitValues | diffpy/srfit/equation/visitors/evaluator.py:136-139 | visiting the arguments keeps the traversal invariants and collects one value per argument, in order, an Argument contributing its own value, after what was collected before |
| Evaluator.FreshOperatorReused | diffpy/srfit/equation/visitors/evaluator.py:117-146 | an operator no newer than the horizon is neither recomputed nor entered, in either mode; in no-partition mode the value is the cached one, and there is none to take without a bare proxy |
| Evaluator.StaleOperatorRecomputed | diffpy/srfit/equation/visitors/evaluator.py:117-121 | a stale operator is recomputed: it is the visit's first trace entry and it has a slot afterwards |
| Evaluator.NoPartsValueIsCached | diffpy/srfit/equation/visitors/evaluator.py:134-143 | in no-partition mode, after a visit the value equals the operator's cached bare value, stale or not |
| Evaluator.NoPartsCachesOperation | diffpy/srfit/equation/visitors/evaluator.py:134-143 | no-partition mode: a stale operator over Arguments caches its operation applied once to their values, and that is the evaluator's value |
| Evaluator.PartsCachesOperation | diffpy/srfit/equation/visitors/evaluator.py:169-202 | parts mode: a stale operator over Arguments caches an Argument proxy holding its operation applied once to their values, and that is the evaluator's value |
| Evaluator.RecomputedProxyHoldsOutcome | diffpy/srfit/equation/visitors/evaluator.py:169-202 | the proxy holds the helper's outcome over the collected arguments after the combination decision; a plain outcome is also the evaluator's value |
| Evaluator.RootOutcomeIsReduced | diffpy/srfit/equation/visitors/evaluator.py:182-202 | an operator recomputed at the root, or one that may combine, caches a plain value equal to the evaluator's value |
| Evaluator.NestedPartitionPropagates | diffpy/srfit/equation/visitors/evaluator.py:187-194 | below the root, without may-combine, a partition outcome is cached as a partition-like proxy with the source's combine, tags and tag map; the value is not set |
| Evaluator.OnlyFirstRecomputationAtRoot | diffpy/srfit/equation/visitors/evaluator.py:165-170 | only the first operator recomputed in a step sees the root flag, and none does once it is cleared |
| Evaluator.VisitLeavesRoot | diffpy/srfit/equation/visitors/evaluator.py:91-103 | visiting an Argument or operator clears the root flag; visiting a Partition leaves it |
| Evaluator.ClickedTraversalStartsAtRoot | diffpy/srfit/equation/visitors/evaluator.py:85-89 | after a click, a stale operator is recomputed first and as the root |
| Evaluator.RevisitAfterClickIsCached | diffpy/srfit/equation/visitors/evaluator.py:17-34 | after a traversal and a click, the next traversal recomputes nothing, keeps every proxy and yields the same value |
| Evaluator.VisitArgsReaches | diffpy/srfit/equation/visitors/evaluator.py:176-178 | every argument is visited, from a state with the same horizon, and what it records stays in the final trace |
| Evaluator.VisitValuesReaches | diffpy/srfit/equation/visitors/evaluator.py:136-139 | the same for the no-partition argument loop |
| Evaluator.StaleOperatorVisitsArgument | diffpy/srfit/equation/visitors/evaluator.py:117-139 | a recomputed operator visits each of its arguments during its own visit |
| Evaluator.StaleDescendantRecomputed | diffpy/srfit/equation/visitors/evaluator.py:117-121 | any operator below, through operator arguments, that is newer than the horizon is recomputed during the visit, in either mode |
| Evaluator.VisitChangesOnlyStale | diffpy/srfit/equation/visitors/evaluator.py:111-146 | every recomputation a visit records, and every proxy it writes, belongs to an operator of the visited tree newer than the horizon; no proxy is removed |
| Evaluator.CreateProxyChangesOnlyStale | diffpy/srfit/equation/visitors/evaluator.py:169-202 | a recomputation records and writes only for the operator itself and stale operators below it |
| Evaluator.VisitArgsChangesOnlyStale | diffpy/srfit/equation/visitors/evaluator.py:176-178 | the argument loop records and writes only for stale operators inside the arguments |
| Evaluator.RecomputeNoPartsChangesOnlyStale | diffpy/srfit/equation/visitors/evaluator.py:134-141 | a no-partition recomputation records and writes only for the operator itself and stale operators below it |
| Evaluator.VisitValuesChangesOnlyStale | diffpy/srfit/equation/visitors/evaluator.py:136-139 | the no-partition argument loop records and writes only for stale operators inside the arguments |
| Evaluator.UpToDateTreeUntouched | diffpy/srfit/equation/visitors/evaluator.py:117-121 | a tree with no operator newer than the horizon is visited without any recomputation and without writing a proxy |

## Left out

- Clicker internals: the class is not part of this model. The process-wide counter is the explicit `Clickers.Counter`. A fresh clicker's starting number is a parameter. Subject registration is structural: an operator's subjects are its arguments.
- Partition internals and `Partition._prepare`: not part of this model. A partition is seen with its part values already refreshed. Its `combine` is assumed not to raise. Tag indices are natural numbers, so Python's negative indexing is not modelled.
- `_PseudoPartition._prepare` does nothing. Its effect in the model is that a partition-like proxy presents exactly the part values last stored (`Proxies.Store`, `Helper.CollectReadsStoredOutcome`).
- `Generator.generate` and `Generator.literal` are external. A generator is modelled by the literal its regeneration leaves behind. Its own clicker number is opaque, so invalidation is stated only through operator arguments.
- numpy numerics (add, subtract, multiply, divide, power, mod, negative, sum, polyval, ufuncs, convolution values, division by the sum of the second vector) are opaque parameters. The binary arithmetic operators, `UFuncOperator` and `PolyvalOperator` are `NewOperator` with their operation and arity. Operator `name` and `symbol`, `__str__` and `__id__` are display only.
- The Validator and PartFinder visitors and the Visitor base class are not part of this model.
- Several evaluators sharing one tree are not modelled. Proxies live in one arena keyed by operator id, and a shared node is the same operator value, with the same id, appearing more than once.
- The helper keeps a reference to each partition and reads its part values at evaluation time. The model takes them when the argument is collected. The two coincide because recomputation is deterministic.
- `Helper.combine` tests the held partition for truthiness. It is modelled as a test for "no partition held".
- Evaluator.CreateProxy: the traversal caches through the corrected `Proxies.Store`, not the in-place update of evaluator.py:188-201. The two differ in two cases. First, a proxy of the other class keeps presenting its old contents in the source (see Findings). Second, a slot holding a bare value left by the no-partition evaluator (evaluator.py:141) makes the source raise when it assigns attributes onto that value (evaluator.py:191 or 201), while the model replaces the slot. `Proxies.OverwriteInPlace` models both cases as written.
- Evaluator.Visit: a traversal that raises returns only the fault. Proxies that inner operators wrote before the raise are kept by the source and reused after the next click, but the model does not carry them.
- Operator ids: the arena relies on distinct operators in a tree having distinct ids, as distinct Python objects do. The model does not state this as a predicate, so lemmas that name an operator by id (`Evaluator.StaleDescendantRecomputed`, `Evaluator.VisitChangesOnlyStale`) identify it only under that assumption.
- Helper.ApplyToSelectedParts: when several selected parts fail, which fault is raised depends on the set's iteration order. The contract states only that it fails exactly when the reference definition does.
- Evaluator.OnOperatorNoParts: on the fast path with a missing or non-bare proxy, the source hands None, or the proxy object, on as the value. The model raises `NoPlainValue` instead, because such a value is not a `V`.
- Evaluator.NewEvaluator: the initial value 0 is the parameter `zero`, because values are of an abstract type.

## Findings

| source | as written | input that shows it | evidently intended | confidence | as-written member | corrected member |
|---|---|---|---|---|---|---|
| diffpy/srfit/equation/literals/operators.py:121-126 | the new tags go to a lazy `map` that is never consumed under the Python 3 versions the package declares, so the tag set stays unchanged | a tagless operator given tag "b", applied to parts tagged a:{0,1}, b:{2}: all three parts are transformed | the tag set becomes the old tags plus the given ones, so only part 2 is transformed | not executed; high | Operators.AddTagsAsWritten, Operators.AddTagsAsWrittenSelectsEverything | Operators.AddTags, Operators.AddTagsSelectsTaggedParts |
| diffpy/srfit/equation/visitors/evaluator.py:187-201 | an existing proxy object keeps its class, and the new result's attributes are assigned onto it. An Argument proxy that receives a partition result still identifies as an Argument with its old value, and a pseudo-partition that receives a plain value still presents its old parts. A bare value left by the no-partition evaluator cannot take the attributes at all, so the update raises | operator A over one partition is first recomputed as the traversal root, so it caches an Argument proxy holding 1. It is later recomputed below another root after its partition changed, now yielding parts [5]. The enclosing operator's helper still reads the plain value 1 | the proxy presents the latest outcome in that outcome's own shape | not executed; medium | Proxies.OverwriteInPlace, Proxies.InPlaceOverwriteHidesPartition | Proxies.Store (used by Evaluator.CreateProxy) |

=== FILE: clickers.dfy ===
/** Version stamps ("clickers").

    Every literal owns a clicker and so does every evaluator.  A click draws
    a fresh number from one process-wide counter; a clicker's effective
    version is the largest of its own number and the effective versions of
    the clickers registered as its subjects.  The counter itself and the
    subject storage are not part of this model: the counter is an explicit
    value threaded by the caller, and an operator's subjects are its
    arguments.
 */
module Clickers {

  /** The process-wide counter; `last` is the newest version handed out. */
  datatype Counter = Counter(last: nat)

  /** A version drawn by one click, with the counter after the click. */
  datatype Drawn = Drawn(version: nat, counter: Counter)

  /** Clicking hands out a version newer than every version issued so far,
      and the counter remembers it as the newest one. */
  function Click(c: Counter): (r: Drawn)
    ensures r.version > c.last
    ensures r.counter.last == r.version
  {
    Drawn(c.last + 1, Counter(c.last + 1))
  }

  function Max(a: nat, b: nat): nat {
    if a < b then b else a
  }

  /** The effective version of a clicker whose own number is `local` and
      whose subjects have effective versions `subjects`: the maximum of all
      of them. */
  function Effective(local: nat, subjects: seq<nat>): (r: nat)
    ensures r >= local
    ensures forall i :: 0 <= i < |subjects| ==> r >= subjects[i]
    ensures r == local || exists i :: 0 <= i < |subjects| && r == subjects[i]
    decreases |subjects|
  {
    if |subjects| == 0 then local
    else Max(Effective(local, subjects[..|subjects| - 1]), subjects[|subjects| - 1])
  }
}

=== FILE: evaluator.dfy ===
/** The incremental evaluator.

    An evaluator walks a tree and computes its value.  It recomputes an
    operator only when the operator's effective version is newer than the
    evaluator's horizon (its own clicker), and otherwise relies on the proxy
    the operator cached earlier.  In parts mode, partition shape propagates
    upward through the proxies and is reduced at the traversal root or at an
    operator that may combine; the no-partition mode applies operations to
    plain values only.

    The traversal is a function of (node, state): the state holds the
    evaluator, the proxy arena, and the trace of operators recomputed so far
    (each with the root flag it saw).  `generate` and `_prepare` are opaque:
    a Generator is seen through its regenerated literal, a Partition with its
    refreshed part values.
 */
module Evaluator {
  import opened Results
  import opened Partitions
  import opened Literals
  import opened Proxies
  import opened Helper
  import Clickers

  /** The evaluator: the value of the last node it computed, its clicker's
      number (the horizon), whether it is at the root of the traversal, and
      whether it processes partitions. */
  datatype EvalState<V> = EvalState(value: V, horizon: nat, atRoot: bool, parts: bool)

  /** One recomputation: which operator, and whether the evaluator was at
      the root when it began. */
  datatype Recompute = Recompute(id: nat, atRoot: bool)

  datatype State<!V> = State(ev: EvalState<V>, arena: Arena<V>, trace: seq<Recompute>)

  /** A new evaluator: value `zero`, at the root, horizon the number of its
      fresh clicker; it processes partitions unless told otherwise. */
  function NewEvaluator<V>(zero: V, horizon: nat, parts: bool := true): (r: EvalState<V>)
    ensures r.atRoot && r.value == zero && r.horizon == horizon && r.parts == parts
  {
    EvalState(zero, horizon, true, parts)
  }

  /** An evaluator and the counter after clicking it. */
  datatype Clicked<V> = Clicked(ev: EvalState<V>, counter: Clickers.Counter)

  /** Clicking the evaluator after a traversal: its horizon moves past every
      version issued so far and the next traversal starts at the root. */
  function Click<V>(ev: EvalState<V>, counter: Clickers.Counter): (r: Clicked<V>)
    ensures r.ev.atRoot
    ensures r.ev.horizon > counter.last && r.counter.last == r.ev.horizon
    ensures r.ev.value == ev.value && r.ev.parts == ev.parts
  {
    var d := Clickers.Click(counter);
    Clicked(ev.(horizon := d.version, atRoot := true), d.counter)
  }

  /** What every step of a traversal keeps: the horizon and the mode, the
      trace only grows, a cleared root flag stays cleared and marks every new
      recomputation as not at the root, and in parts mode only the first
      recomputation of the step can be at the root. */
  ghost predicate Advances<V>(s: State<V>, s': State<V>) {
    && s'.ev.horizon == s.ev.horizon
    && s'.ev.parts == s.ev.parts
    && s.trace <= s'.trace
    && (!s.ev.atRoot ==> !s'.ev.atRoot && forall k :: |s.trace| <= k < |s'.trace| ==> !s'.trace[k].atRoot)
    && (s.ev.parts ==> forall k :: |s.trace| < k < |s'.trace| ==> !s'.trace[k].atRoot)
  }

  /** Evaluator.onArgument / onPartition / onGenerator / onOperator. */
  function Visit<V>(n: Node<V>, s: State<V>): (r: Result<State<V>>)
    ensures r.Ok? ==> Advances(s, r.value)
    ensures r.Ok? && |r.value.trace| > |s.trace| ==> !r.value.ev.atRoot
    decreases n, 0
  {
    match n
    case Arg(v, _) => Ok(s.(ev := s.ev.(value := v, atRoot := false)))
    case Part(pv, version) =>
      if version > s.ev.horizon && s.ev.atRoot then Ok(s.(ev := s.ev.(value := pv.combine(pv.partvals))))
      else Ok(s)
    case Gen(_, literal) => Visit(literal, s)
    case Op(op) => if s.ev.parts then OnOperator(op, s) else OnOperatorNoParts(op, s)
  }

  /** Parts mode: recompute a stale operator; either way leave the root. */
  function OnOperator<V>(op: Operator<V>, s: State<V>): (r: Result<State<V>>)
    ensures r.Ok? ==> Advances(s, r.value) && !r.value.ev.atRoot
    decreases op, 2
  {
    if OpVersion(op) > s.ev.horizon then
      var s' :- CreateProxy(op, s);
      Ok(s'.(ev := s'.ev.(atRoot := false)))
    else
      Ok(s.(ev := s.ev.(atRoot := false)))
  }

  /** The state in which an operator's arguments are visited: off the root,
      with the recomputation recorded. */
  function EnterOperator<V>(op: Operator<V>, s: State<V>): State<V> {
    State(s.ev.(atRoot := false), s.arena, s.trace + [Recompute(op.id, s.ev.atRoot)])
  }

  /** Evaluate an operator through the helper and cache the outcome, reduced
      if the operator was the traversal root or may combine. */
  function CreateProxy<V>(op: Operator<V>, s: State<V>): (r: Result<State<V>>)
    ensures r.Ok? ==> Advances(s, r.value) && !r.value.ev.atRoot
    ensures r.Ok? ==> |r.value.trace| > |s.trace| && r.value.trace[|s.trace|] == Recompute(op.id, s.ev.atRoot)
    ensures r.Ok? ==> op.id in r.value.arena && !r.value.arena[op.id].Raw?
    decreases op, 1
  {
    var gathered :- VisitArgs(op.args, 0, EnterOperator(op, s), []);
    var out :- Evaluate(op, gathered.1);
    var fin := Finish(op, s.ev.atRoot, out);
    var s2 := gathered.0;
    Ok(State(if fin.Value? then s2.ev.(value := fin.v) else s2.ev, Store(s2.arena, op.id, fin), s2.trace))
  }

  /** Visit the arguments from position `i` on, in order, each first by the
      evaluator and then by the helper. */
  function VisitArgs<V>(args: seq<Node<V>>, i: nat, s: State<V>, acc: seq<Collected<V>>)
      : (r: Result<(State<V>, seq<Collected<V>>)>)
    requires i <= |args|
    ensures r.Ok? ==> Advances(s, r.value.0) && |r.value.1| == |acc| + |args| - i
    ensures r.Ok? ==> r.value.1[..|acc|] == acc
    ensures r.Ok? ==> forall j :: i <= j < |args| && args[j].Arg? ==> r.value.1[|acc| + j - i] == Plain(args[j].value)
    ensures r.Ok? ==> forall j :: i <= j < |args| && args[j].Part? ==> r.value.1[|acc| + j - i] == Parted(args[j].view)
    decreases args, |args| - i
  {
    if i == |args| then Ok((s, acc))
    else
      var s' :- Visit(args[i], s);
      var c :- Collect(args[i], s'.arena);
      VisitArgs(args, i + 1, s', acc + [c])
  }

  /** No-partition mode: recompute a stale operator from its arguments'
      values; either way the evaluator's value is the cached bare value. */
  function OnOperatorNoParts<V>(op: Operator<V>, s: State<V>): (r: Result<State<V>>)
    requires !s.ev.parts
    ensures r.Ok? ==> Advances(s, r.value) && !r.value.ev.atRoot
    ensures r.Ok? ==> op.id in r.value.arena && r.value.arena[op.id] == Raw(r.value.ev.value)
    decreases op, 2
  {
    var s1 :- if OpVersion(op) > s.ev.horizon then RecomputeNoParts(op, s) else Ok(s);
    if op.id in s1.arena && s1.arena[op.id].Raw? then
      Ok(s1.(ev := s1.ev.(value := s1.arena[op.id].raw, atRoot := false)))
    else
      Err(NoPlainValue)
  }

  function RecomputeNoParts<V>(op: Operator<V>, s: State<V>): (r: Result<State<V>>)
    requires !s.ev.parts
    ensures r.Ok? ==> Advances(s, r.value)
    ensures r.Ok? ==> |r.value.trace| > |s.trace| && r.value.trace[|s.trace|] == Recompute(op.id, s.ev.atRoot)
    ensures r.Ok? ==> op.id in r.value.arena && r.value.arena[op.id].Raw?
    ensures r.Ok? ==>
      var g := VisitValues(op.args, 0, s.(trace := s.trace + [Recompute(op.id, s.ev.atRoot)]), []);
      && g.Ok? && op.operation(g.value.1).Some?
      && r.value.arena[op.id] == Raw(op.operation(g.value.1).value)
    decreases op, 1
  {
    var gathered :- VisitValues(op.args, 0, s.(trace := s.trace + [Recompute(op.id, s.ev.atRoot)]), []);
    match op.operation(gathered.1)
    case None => Err(OperationFailed)
    case Some(v) => Ok(gathered.0.(arena := gathered.0.arena[op.id := Raw(v)]))
  }

  /** Visit the arguments from position `i` on, collecting the evaluator's
      value after each. */
  function VisitValues<V>(args: seq<Node<V>>, i: nat, s: State<V>, acc: seq<V>): (r: Result<(State<V>, seq<V>)>)
    requires i <= |args|
    ensures r.Ok? ==> Advances(s, r.value.0) && |r.value.1| == |acc| + |args| - i
    ensures r.Ok? ==> r.value.1[..|acc|] == acc
    ensures r.Ok? ==> forall j :: i <= j < |args| && args[j].Arg? ==> r.value.1[|acc| + j - i] == args[j].value
    decreases args, |args| - i
  {
    if i == |args| then Ok((s, acc))
    else
      var s' :- Visit(args[i], s);
      VisitValues(args, i + 1, s', acc + [s'.ev.value])
  }

  // Staleness

  /** The staleness gate: an operator no newer than the horizon is not
      recomputed and its arguments are not visited.  In parts mode the arena,
      trace and value stay as they were; in no-partition mode the value
      becomes the cached bare value, and there is none to take when the
      proxy is missing or not bare. */
  lemma FreshOperatorReused<V>(op: Operator<V>, s: State<V>)
    requires OpVersion(op) <= s.ev.horizon
    ensures s.ev.parts ==> Visit(Op(op), s) == Ok(s.(ev := s.ev.(atRoot := false)))
    ensures !s.ev.parts && op.id in s.arena && s.arena[op.id].Raw? ==>
      Visit(Op(op), s) == Ok(s.(ev := s.ev.(value := s.arena[op.id].raw, atRoot := false)))
    ensures !s.ev.parts && (op.id !in s.arena || !s.arena[op.id].Raw?) ==>
      Visit(Op(op), s) == Err(NoPlainValue)
  {
  }

  /** A stale operator is recomputed: its recomputation is the first entry
      the visit adds to the trace, and its arena slot is (re)written. */
  lemma StaleOperatorRecomputed<V>(op: Operator<V>, s: State<V>)
    requires OpVersion(op) > s.ev.horizon
    requires Visit(Op(op), s).Ok?
    ensures var s' := Visit(Op(op), s).value;
            && |s'.trace| > |s.trace|
            && s'.trace[|s.trace|] == Recompute(op.id, s.ev.atRoot)
            && op.id in s'.arena
  {
  }

  /** No-partition mode: after visiting an operator, stale or not, the
      evaluator's value is exactly the bare value cached for it. */
  lemma NoPartsValueIsCached<V>(op: Operator<V>, s: State<V>)
    requires !s.ev.parts && Visit(Op(op), s).Ok?
    ensures var s' := Visit(Op(op), s).value;
            op.id in s'.arena && s'.arena[op.id] == Raw(s'.ev.value)
  {
  }

  // Partition propagation and combination

  /** Parts mode: a recomputed operator's proxy holds the helper's outcome
      over the arguments as collected after visiting them, after the
      combination decision; a plain outcome is also the evaluator's value,
      a partition-shaped one leaves the value as the arguments left it. */
  lemma RecomputedProxyHoldsOutcome<V>(op: Operator<V>, s: State<V>)
    requires s.ev.parts && OpVersion(op) > s.ev.horizon && Visit(Op(op), s).Ok?
    ensures var g := VisitArgs(op.args, 0, EnterOperator(op, s), []);
            && g.Ok? && Evaluate(op, g.value.1).Ok?
            && var s' := Visit(Op(op), s).value;
               var fin := Finish(op, s.ev.atRoot, Evaluate(op, g.value.1).value);
               && s'.arena == Store(g.value.0.arena, op.id, fin)
               && s'.ev.value == (if fin.Value? then fin.v else g.value.0.ev.value)
  {
    assert Visit(Op(op), s) == OnOperator(op, s);
    var c := CreateProxy(op, s);
    assert c.Ok?;
    assert Visit(Op(op), s).value == c.value.(ev := c.value.ev.(atRoot := false));
    CreateProxyHoldsOutcome(op, s);
  }

  lemma CreateProxyHoldsOutcome<V>(op: Operator<V>, s: State<V>)
    requires CreateProxy(op, s).Ok?
    ensures var g := VisitArgs(op.args, 0, EnterOperator(op, s), []);
            && g.Ok? && Evaluate(op, g.value.1).Ok?
            && var c := CreateProxy(op, s).value;
               var fin := Finish(op, s.ev.atRoot, Evaluate(op, g.value.1).value);
               && c.arena == Store(g.value.0.arena, op.id, fin)
               && c.ev.value == (if fin.Value? then fin.v else g.value.0.ev.value)
  {
    assert VisitArgs(op.args, 0, EnterOperator(op, s), []).Ok?;
  }

  /** An operator recomputed at the traversal root, or one that may
      combine, caches a plain value, which is also the evaluator's value. */
  lemma RootOutcomeIsReduced<V>(op: Operator<V>, s: State<V>)
    requires s.ev.parts && (s.ev.atRoot || op.canCombine)
    requires OpVersion(op) > s.ev.horizon && Visit(Op(op), s).Ok?
    ensures var s' := Visit(Op(op), s).value;
            op.id in s'.arena && s'.arena[op.id] == ArgProxy(s'.ev.value)
  {
    RecomputedProxyHoldsOutcome(op, s);
  }

  /** Below the root, an operator that may not combine and whose helper
      ends with a partition caches a partition-like proxy carrying the source
      partition's combine, tags and tag map with the new part values, and
      leaves the evaluator's value alone. */
  lemma NestedPartitionPropagates<V>(op: Operator<V>, s: State<V>)
    requires s.ev.parts && !s.ev.atRoot && !op.canCombine
    requires OpVersion(op) > s.ev.horizon && Visit(Op(op), s).Ok?
    ensures var g := VisitArgs(op.args, 0, EnterOperator(op, s), []);
            && g.Ok? && Evaluate(op, g.value.1).Ok?
            && var out := Evaluate(op, g.value.1).value;
               var s' := Visit(Op(op), s).value;
               out.Parts? ==>
                 && op.id in s'.arena
                 && s'.arena[op.id] == PseudoPart(AsPartition(out.src, out.partvals))
                 && s'.ev.value == g.value.0.ev.value
  {
    RecomputedProxyHoldsOutcome(op, s);
  }

  /** The values of a list of Arguments, in order. */
  function ArgValues<V>(args: seq<Node<V>>): (r: seq<V>)
    requires forall j :: 0 <= j < |args| ==> args[j].Arg?
    ensures |r| == |args|
  {
    seq(|args|, j requires 0 <= j < |args| => args[j].value)
  }

  /** No-partition mode: a stale operator over Arguments caches, and takes as
      the evaluator's value, its operation applied once to their values. */
  lemma NoPartsCachesOperation<V>(op: Operator<V>, s: State<V>)
    requires !s.ev.parts && OpVersion(op) > s.ev.horizon
    requires forall j :: 0 <= j < |op.args| ==> op.args[j].Arg?
    requires Visit(Op(op), s).Ok?
    ensures var s' := Visit(Op(op), s).value;
            && op.operation(ArgValues(op.args)).Some?
            && op.id in s'.arena && s'.arena[op.id] == Raw(op.operation(ArgValues(op.args)).value)
            && s'.ev.value == op.operation(ArgValues(op.args)).value
  {
    assert Visit(Op(op), s) == OnOperatorNoParts(op, s);
    var s0 := s.(trace := s.trace + [Recompute(op.id, s.ev.atRoot)]);
    assert RecomputeNoParts(op, s).Ok?;
    var g := VisitValues(op.args, 0, s0, []);
    assert g.value.1 == ArgValues(op.args);
  }

  /** Parts mode: a stale operator over Arguments caches an Argument proxy
      holding its operation applied once to their values, which is also the
      evaluator's value. */
  lemma PartsCachesOperation<V>(op: Operator<V>, s: State<V>)
    requires s.ev.parts && OpVersion(op) > s.ev.horizon
    requires forall j :: 0 <= j < |op.args| ==> op.args[j].Arg?
    requires Visit(Op(op), s).Ok?
    ensures var s' := Visit(Op(op), s).value;
            && op.operation(ArgValues(op.args)).Some?
            && op.id in s'.arena && s'.arena[op.id] == ArgProxy(op.operation(ArgValues(op.args)).value)
            && s'.ev.value == op.operation(ArgValues(op.args)).value
  {
    RecomputedProxyHoldsOutcome(op, s);
    var g := VisitArgs(op.args, 0, EnterOperator(op, s), []);
    var vals := ArgValues(op.args);
    assert forall j :: 0 <= j < |g.value.1| ==> g.value.1[j] == Plain(vals[j]);
    NoPartitionsAppliesOnce(op, g.value.1, vals);
  }

  // The root flag

  /** In parts mode only the first operator recomputed in a step can see the
      root flag; once the flag is cleared no recomputation sees it. */
  lemma OnlyFirstRecomputationAtRoot<V>(n: Node<V>, s: State<V>)
    requires Visit(n, s).Ok?
    ensures var s' := Visit(n, s).value;
            && (s.ev.parts ==> forall k :: |s.trace| < k < |s'.trace| ==> !s'.trace[k].atRoot)
            && (!s.ev.atRoot ==> forall k :: |s.trace| <= k < |s'.trace| ==> !s'.trace[k].atRoot)
  {
  }

  /** Visiting an Argument or an operator leaves the root; visiting a
      Partition never does. */
  lemma VisitLeavesRoot<V>(n: Node<V>, s: State<V>)
    requires Visit(n, s).Ok?
    ensures n.Arg? || n.Op? ==> !Visit(n, s).value.ev.atRoot
    ensures n.Part? ==> Visit(n, s).value.ev.atRoot == s.ev.atRoot
  {
  }

  /** A traversal that starts right after a click, at a stale operator,
      records that operator first and as seen at the root; visiting an
      argument or an operator leaves the root behind. */
  lemma ClickedTraversalStartsAtRoot<V>(op: Operator<V>, s: State<V>, counter: Clickers.Counter)
    requires OpVersion(op) > Click(s.ev, counter).ev.horizon
    requires Visit(Op(op), s.(ev := Click(s.ev, counter).ev)).Ok?
    ensures var s' := Visit(Op(op), s.(ev := Click(s.ev, counter).ev)).value;
            |s'.trace| > |s.trace| && s'.trace[|s.trace|] == Recompute(op.id, true) && !s'.ev.atRoot
  {
    StaleOperatorRecomputed(op, s.(ev := Click(s.ev, counter).ev));
  }

  // Memoization across traversals

  /** After a traversal and a click, with every clicker number issued by the
      counter, the next traversal of the same operator recomputes nothing,
      leaves every proxy in place, and yields the same value. */
  lemma RevisitAfterClickIsCached<V>(op: Operator<V>, s: State<V>, counter: Clickers.Counter)
    requires Visit(Op(op), s).Ok?
    requires Issued(Op(op), counter.last)
    ensures var s1 := Visit(Op(op), s).value;
            var ev2 := Click(s1.ev, counter).ev;
            && Visit(Op(op), s1.(ev := ev2)) == Ok(State(ev2.(atRoot := false), s1.arena, s1.trace))
            && ev2.value == s1.ev.value
  {
    IssuedBound(Op(op), counter.last);
    var s1 := Visit(Op(op), s).value;
    if !s.ev.parts {
      NoPartsValueIsCached(op, s);
    }
  }

  // Invalidation

  /** Every argument from position `i` on is visited, from a state with the
      same horizon and mode whose trace already holds what came before, and
      what its visit records stays in the final trace. */
  lemma {:induction false} VisitArgsReaches<V>(args: seq<Node<V>>, i: nat, j: nat, s: State<V>,
                                              acc: seq<Collected<V>>)
    requires i <= j < |args| && VisitArgs(args, i, s, acc).Ok?
    ensures exists sj: State<V> ::
      && sj.ev.horizon == s.ev.horizon && sj.ev.parts == s.ev.parts
      && |s.trace| <= |sj.trace|
      && Visit(args[j], sj).Ok?
      && Visit(args[j], sj).value.trace <= VisitArgs(args, i, s, acc).value.0.trace
    decreases j - i
  {
    var s' := Visit(args[i], s).value;
    var c := Collect(args[i], s'.arena).value;
    assert VisitArgs(args, i, s, acc) == VisitArgs(args, i + 1, s', acc + [c]);
    if j > i {
      VisitArgsReaches(args, i + 1, j, s', acc + [c]);
    }
  }

  /** The same for the no-partition mode's argument loop. */
  lemma {:induction false} VisitValuesReaches<V>(args: seq<Node<V>>, i: nat, j: nat, s: State<V>, acc: seq<V>)
    requires i <= j < |args| && VisitValues(args, i, s, acc).Ok?
    ensures exists sj: State<V> ::
      && sj.ev.horizon == s.ev.horizon && sj.ev.parts == s.ev.parts
      && |s.trace| <= |sj.trace|
      && Visit(args[j], sj).Ok?
      && Visit(args[j], sj).value.trace <= VisitValues(args, i, s, acc).value.0.trace
    decreases j - i
  {
    var s' := Visit(args[i], s).value;
    assert VisitValues(args, i, s, acc) == VisitValues(args, i + 1, s', acc + [s'.ev.value]);
    if j > i {
      VisitValuesReaches(args, i + 1, j, s', acc + [s'.ev.value]);
    }
  }

  /** Every argument of a recomputed operator is visited during the
      operator's visit, from a state with the same horizon whose trace
      already holds what came before, and what it records stays. */
  lemma StaleOperatorVisitsArgument<V>(op: Operator<V>, i: nat, s: State<V>)
    requires OpVersion(op) > s.ev.horizon && i < |op.args|
    requires Visit(Op(op), s).Ok?
    ensures exists sj: State<V> ::
      && sj.ev.horizon == s.ev.horizon
      && |s.trace| <= |sj.trace|
      && Visit(op.args[i], sj).Ok?
      && Visit(op.args[i], sj).value.trace <= Visit(Op(op), s).value.trace
  {
    if s.ev.parts {
      var s0 := EnterOperator(op, s);
      assert Visit(Op(op), s) == OnOperator(op, s);
      CreateProxyKeepsArgsTrace(op, s);
      VisitArgsReaches(op.args, 0, i, s0, []);
    } else {
      var s0 := s.(trace := s.trace + [Recompute(op.id, s.ev.atRoot)]);
      assert Visit(Op(op), s) == OnOperatorNoParts(op, s);
      RecomputeNoPartsKeepsArgsTrace(op, s);
      VisitValuesReaches(op.args, 0, i, s0, []);
    }
  }

  /** A recomputation's trace is the one its argument loop ends with. */
  lemma CreateProxyKeepsArgsTrace<V>(op: Operator<V>, s: State<V>)
    requires CreateProxy(op, s).Ok?
    ensures var g := VisitArgs(op.args, 0, EnterOperator(op, s), []);
            g.Ok? && CreateProxy(op, s).value.trace == g.value.0.trace
  {
    assert VisitArgs(op.args, 0, EnterOperator(op, s), []).Ok?;
  }

  lemma RecomputeNoPartsKeepsArgsTrace<V>(op: Operator<V>, s: State<V>)
    requires !s.ev.parts && RecomputeNoParts(op, s).Ok?
    ensures var g := VisitValues(op.args, 0, s.(trace := s.trace + [Recompute(op.id, s.ev.atRoot)]), []);
            g.Ok? && RecomputeNoParts(op, s).value.trace == g.value.0.trace
  {
    assert VisitValues(op.args, 0, s.(trace := s.trace + [Recompute(op.id, s.ev.atRoot)]), []).Ok?;
  }

  /** Invalidation: when an operator reached from the visited one through
      operator arguments is newer than the horizon, it is recomputed during
      the visit, in either mode. */
  lemma {:induction false} StaleDescendantRecomputed<V>(op: Operator<V>, target: Operator<V>, s: State<V>)
    requires Descends(op, target) && OpVersion(target) > s.ev.horizon
    requires Visit(Op(op), s).Ok?
    ensures var s' := Visit(Op(op), s).value;
            exists k :: |s.trace| <= k < |s'.trace| && s'.trace[k].id == target.id
    decreases op
  {
    DescendantVersionBounded(op, target);
    var i :| 0 <= i < |op.args| && op.args[i].Op? &&
      (op.args[i].op == target || Descends(op.args[i].op, target));
    var child := op.args[i].op;
    var s' := Visit(Op(op), s).value;
    StaleOperatorVisitsArgument(op, i, s);
    var sj: State<V> :| && sj.ev.horizon == s.ev.horizon
                        && |s.trace| <= |sj.trace|
                        && Visit(op.args[i], sj).Ok?
                        && Visit(op.args[i], sj).value.trace <= s'.trace;
    var rj := Visit(Op(child), sj).value;
    assert rj.trace <= s'.trace;
    if child == target {
      StaleOperatorRecomputed(target, sj);
      assert s'.trace[|sj.trace|] == rj.trace[|sj.trace|];
    } else {
      StaleDescendantRecomputed(child, target, sj);
      var k :| |sj.trace| <= k < |rj.trace| && rj.trace[k].id == target.id;
      assert s'.trace[k] == rj.trace[k];
    }
  }

  // Only stale operators are recomputed

  /** The ids of the operators in a tree whose effective version is newer
      than `horizon`, looking through Generators to their literals. */
  function StaleIds<V>(n: Node<V>, horizon: nat): set<nat>
    decreases n, 0
  {
    match n
    case Op(op) => (if OpVersion(op) > horizon then {op.id} else {}) + ArgsStaleIds(op.args, 0, horizon)
    case Gen(_, literal) => StaleIds(literal, horizon)
    case _ => {}
  }

  function ArgsStaleIds<V>(args: seq<Node<V>>, i: nat, horizon: nat): set<nat>
    requires i <= |args|
    decreases args, |args| - i
  {
    if i == |args| then {} else StaleIds(args[i], horizon) + ArgsStaleIds(args, i + 1, horizon)
  }

  /** From `s` to `s'`, every recomputation recorded and every proxy written
      belongs to an operator whose id is in `ids`; no proxy is removed. */
  ghost predicate ChangesWithin<V>(s: State<V>, s': State<V>, ids: set<nat>) {
    && s.arena.Keys <= s'.arena.Keys
    && (forall k :: |s.trace| <= k < |s'.trace| ==> s'.trace[k].id in ids)
    && (forall id :: id in s'.arena && (id !in s.arena || s'.arena[id] != s.arena[id]) ==> id in ids)
  }

  lemma ChangesCompose<V>(s1: State<V>, s2: State<V>, s3: State<V>, a: set<nat>, b: set<nat>)
    requires s1.trace <= s2.trace <= s3.trace
    requires ChangesWithin(s1, s2, a) && ChangesWithin(s2, s3, b)
    ensures ChangesWithin(s1, s3, a + b)
  {
    forall k | |s1.trace| <= k < |s3.trace|
      ensures s3.trace[k].id in a + b
    {
      if k < |s2.trace| {
        assert s3.trace[k] == s2.trace[k];
      }
    }
  }

  /** The "only when" of the staleness gate across a whole traversal: every
      recomputation a visit records, and every proxy it writes, belongs to
      an operator of the visited tree that is newer than the horizon; no
      proxy is removed.  Up-to-date subtrees are left alone. */
  lemma {:induction false} VisitChangesOnlyStale<V>(n: Node<V>, s: State<V>)
    requires Visit(n, s).Ok?
    ensures ChangesWithin(s, Visit(n, s).value, StaleIds(n, s.ev.horizon))
    decreases n, 0
  {
    match n
    case Arg(_, _) =>
    case Part(_, _) =>
    case Gen(_, literal) =>
      VisitChangesOnlyStale(literal, s);
    case Op(op) =>
      var h := s.ev.horizon;
      if OpVersion(op) > h {
        if s.ev.parts {
          assert Visit(n, s) == OnOperator(op, s);
          CreateProxyChangesOnlyStale(op, s);
        } else {
          assert Visit(n, s) == OnOperatorNoParts(op, s);
          RecomputeNoPartsChangesOnlyStale(op, s);
        }
      }
  }

  lemma {:induction false} CreateProxyChangesOnlyStale<V>(op: Operator<V>, s: State<V>)
    requires OpVersion(op) > s.ev.horizon && CreateProxy(op, s).Ok?
    ensures ChangesWithin(s, CreateProxy(op, s).value, StaleIds(Op(op), s.ev.horizon))
    decreases op, 1
  {
    var h := s.ev.horizon;
    var s0 := EnterOperator(op, s);
    var g := VisitArgs(op.args, 0, s0, []);
    assert g.Ok?;
    VisitArgsChangesOnlyStale(op.args, 0, s0, []);
    assert ChangesWithin(s, s0, {op.id});
    ChangesCompose(s, s0, g.value.0, {op.id}, ArgsStaleIds(op.args, 0, h));
    var r := CreateProxy(op, s).value;
    assert r.trace == g.value.0.trace;
    assert ChangesWithin(g.value.0, r, {op.id});
    ChangesCompose(s, g.value.0, r, {op.id} + ArgsStaleIds(op.args, 0, h), {op.id});
  }

  lemma {:induction false} VisitArgsChangesOnlyStale<V>(args: seq<Node<V>>, i: nat, s: State<V>,
                                                       acc: seq<Collected<V>>)
    requires i <= |args| && VisitArgs(args, i, s, acc).Ok?
    ensures ChangesWithin(s, VisitArgs(args, i, s, acc).value.0, ArgsStaleIds(args, i, s.ev.horizon))
    decreases args, |args| - i
  {
    if i < |args| {
      var s' := Visit(args[i], s).value;
      var c := Collect(args[i], s'.arena).value;
      assert VisitArgs(args, i, s, acc) == VisitArgs(args, i + 1, s', acc + [c]);
      VisitChangesOnlyStale(args[i], s);
      VisitArgsChangesOnlyStale(args, i + 1, s', acc + [c]);
      ChangesCompose(s, s', VisitArgs(args, i, s, acc).value.0,
                     StaleIds(args[i], s.ev.horizon), ArgsStaleIds(args, i + 1, s.ev.horizon));
    }
  }

  lemma {:induction false} RecomputeNoPartsChangesOnlyStale<V>(op: Operator<V>, s: State<V>)
    requires !s.ev.parts && OpVersion(op) > s.ev.horizon && RecomputeNoParts(op, s).Ok?
    ensures ChangesWithin(s, RecomputeNoParts(op, s).value, StaleIds(Op(op), s.ev.horizon))
    decreases op, 1
  {
    var h := s.ev.horizon;
    var s0 := s.(trace := s.trace + [Recompute(op.id, s.ev.atRoot)]);
    var g := VisitValues(op.args, 0, s0, []);
    assert g.Ok?;
    VisitValuesChangesOnlyStale(op.args, 0, s0, []);
    assert ChangesWithin(s, s0, {op.id});
    ChangesCompose(s, s0, g.value.0, {op.id}, ArgsStaleIds(op.args, 0, h));
    var r := RecomputeNoParts(op, s).value;
    assert r.trace == g.value.0.trace;
    assert ChangesWithin(g.value.0, r, {op.id});
    ChangesCompose(s, g.value.0, r, {op.id} + ArgsStaleIds(op.args, 0, h), {op.id});
  }

  lemma {:induction false} VisitValuesChangesOnlyStale<V>(args: seq<Node<V>>, i: nat, s: State<V>, acc: seq<V>)
    requires i <= |args| && VisitValues(args, i, s, acc).Ok?
    ensures ChangesWithin(s, VisitValues(args, i, s, acc).value.0, ArgsStaleIds(args, i, s.ev.horizon))
    decreases args, |args| - i
  {
    if i < |args| {
      var s' := Visit(args[i], s).value;
      assert VisitValues(args, i, s, acc) == VisitValues(args, i + 1, s', acc + [s'.ev.value]);
      VisitChangesOnlyStale(args[i], s);
      VisitValuesChangesOnlyStale(args, i + 1, s', acc + [s'.ev.value]);
      ChangesCompose(s, s', VisitValues(args, i, s, acc).value.0,
                     StaleIds(args[i], s.ev.horizon), ArgsStaleIds(args, i + 1, s.ev.horizon));
    }
  }

  /** A tree none of whose operators is newer than the horizon is not
      recomputed anywhere: the visit records nothing and writes no proxy. */
  lemma UpToDateTreeUntouched<V>(n: Node<V>, s: State<V>)
    requires Visit(n, s).Ok? && StaleIds(n, s.ev.horizon) == {}
    ensures Visit(n, s).value.trace == s.trace && Visit(n, s).value.arena == s.arena
  {
    var s' := Visit(n, s).value;
    VisitChangesOnlyStale(n, s);
    assert forall id :: id in s'.arena ==> id in s.arena && s'.arena[id] == s.arena[id];
  }
}

=== FILE: helper.dfy ===
/** The evaluation helper: evaluates one operator on the values its
    arguments left behind, propagating partitions.

    The rule depends on how many arguments are partitions: none, apply the
    operation once; exactly one, apply it part by part to the parts the
    operator's tags select; two or more, reduce every partition with its own
    combine and apply the operation once.
 */
module Helper {
  import opened Results
  import opened Partitions
  import opened Literals
  import opened Proxies
  import Operators

  /** What the helper records for one argument: an Argument's value, a
      Partition, a Generator's literal, or an operator's cached proxy. */
  function Collect<V>(n: Node<V>, arena: Arena<V>): (r: Result<Collected<V>>)
    ensures n.Arg? ==> r == Ok(Plain(n.value))
    ensures n.Part? ==> r == Ok(Parted(n.view))
    ensures n.Gen? ==> r == Collect(n.literal, arena)
    ensures n.Op? ==> (r.Ok? <==> n.op.id in arena && !arena[n.op.id].Raw?)
    ensures n.Op? && r.Ok? ==> ReadSlot(arena[n.op.id]) == Some(r.value)
    decreases n
  {
    match n
    case Arg(v, _) => Ok(Plain(v))
    case Part(pv, _) => Ok(Parted(pv))
    case Gen(_, literal) => Collect(literal, arena)
    case Op(op) =>
      if op.id in arena && ReadSlot(arena[op.id]).Some? then Ok(ReadSlot(arena[op.id]).value)
      else Err(ProxyNotIdentifiable)
  }

  /** A new operator has no proxy: in an arena that holds nothing for its
      id, collecting it raises, as identifying a `_proxy` of None does. */
  lemma NewOperatorHasNoProxy<V>(id: nat, clicker: nat, operation: seq<V> -> Option<V>, arena: Arena<V>)
    requires id !in arena
    ensures Collect(Op(Operators.NewOperator(id, clicker, operation)), arena) == Err(ProxyNotIdentifiable)
  {
  }

  /** An operator whose outcome was just cached is collected as exactly that
      outcome; one with no identifiable proxy makes the helper raise. */
  lemma CollectReadsStoredOutcome<V>(op: Operator<V>, arena: Arena<V>, o: Outcome<V>)
    ensures Collect(Op(op), Store(arena, op.id, o)) == Ok(Observed(o))
    ensures op.id !in arena ==> Collect(Op(op), arena) == Err(ProxyNotIdentifiable)
  {
  }

  /** The positions of the partition arguments, in argument order. */
  function PartIndices<V>(args: seq<Collected<V>>): (r: seq<nat>)
    ensures forall k :: 0 <= k < |r| ==> r[k] < |args| && args[r[k]].Parted?
    ensures forall i :: 0 <= i < |args| && args[i].Parted? ==> i in r
    ensures forall k, l :: 0 <= k < l < |r| ==> r[k] < r[l]
    decreases |args|
  {
    if |args| == 0 then []
    else
      var last := |args| - 1;
      PartIndices(args[..last]) + (if args[last].Parted? then [last] else [])
  }

  /** Without partition arguments the helper records no partition. */
  lemma {:induction false} NoPartitionsFound<V>(args: seq<Collected<V>>)
    requires forall i :: 0 <= i < |args| ==> args[i].Plain?
    ensures PartIndices(args) == []
    decreases |args|
  {
    if |args| > 0 {
      NoPartitionsFound(args[..|args| - 1]);
    }
  }

  /** With exactly one partition argument, the helper finds it and no other. */
  lemma {:induction false} SinglePartitionFound<V>(args: seq<Collected<V>>, pidx: nat)
    requires pidx < |args| && args[pidx].Parted?
    requires forall i :: 0 <= i < |args| && i != pidx ==> args[i].Plain?
    ensures PartIndices(args) == [pidx]
    decreases |args|
  {
    var last := |args| - 1;
    if pidx == last {
      NoPartitionsFound(args[..last]);
    } else {
      SinglePartitionFound(args[..last], pidx);
    }
  }

  /** With two partition arguments, the helper finds at least two. */
  lemma SeveralPartitionsFound<V>(args: seq<Collected<V>>, i: nat, j: nat)
    requires i < j < |args| && args[i].Parted? && args[j].Parted?
    ensures |PartIndices(args)| >= 2
  {
    var r := PartIndices(args);
    assert i in r && j in r;
    var k :| 0 <= k < |r| && r[k] == i;
    var l :| 0 <= l < |r| && r[l] == j;
    assert k != l;
  }

  /** The value an argument contributes when partitions are not propagated:
      a partition is reduced through its own combine. */
  function Reduce<V>(c: Collected<V>): V {
    match c
    case Plain(v) => v
    case Parted(pv) => pv.combine(pv.partvals)
  }

  function Reduced<V>(args: seq<Collected<V>>): (r: seq<V>)
    ensures |r| == |args|
  {
    seq(|args|, i requires 0 <= i < |args| => Reduce(args[i]))
  }

  /** The argument list with `x` in the partition's slot: every other
      argument is its plain value. */
  function Substituted<V>(args: seq<Collected<V>>, pidx: nat, x: V): (r: seq<V>)
    requires pidx < |args|
    ensures |r| == |args| && r[pidx] == x
    ensures forall j :: 0 <= j < |args| && j != pidx ==> r[j] == Reduce(args[j])
  {
    Reduced(args)[pidx := x]
  }

  /** Apply the operation once to an argument list. */
  function EvaluateArgument<V>(op: Operator<V>, vals: seq<V>): (r: Result<Outcome<V>>)
    ensures r.Ok? <==> op.operation(vals).Some?
    ensures r.Ok? ==> r.value == Value(op.operation(vals).value)
    ensures r.Err? ==> r.fault == OperationFailed
  {
    match op.operation(vals)
    case None => Err(OperationFailed)
    case Some(v) => Ok(Value(v))
  }

  /** Apply the operation to part `i` of the single partition argument. */
  function ApplyPart<V>(op: Operator<V>, args: seq<Collected<V>>, pidx: nat, i: nat): Option<V>
    requires pidx < |args| && args[pidx].Parted? && i < |args[pidx].pv.partvals|
  {
    op.operation(Substituted(args, pidx, args[pidx].pv.partvals[i]))
  }

  /** Evaluation with exactly one partition argument, at position `pidx`: a
      copy of its part list in which every selected part is replaced by the
      operation applied to it; raises if a selected index is out of range or
      the operation raises. */
  function EvaluatePartition<V>(op: Operator<V>, args: seq<Collected<V>>, pidx: nat): (r: Result<Outcome<V>>)
    requires pidx < |args| && args[pidx].Parted?
    ensures var p := args[pidx].pv;
            r.Ok? <==> forall i :: i in Selected(op.tags, p) ==>
                         i < |p.partvals| && ApplyPart(op, args, pidx, i).Some?
    ensures var p := args[pidx].pv;
            r.Ok? ==> && r.value.Parts? && r.value.src == p && |r.value.partvals| == |p.partvals|
                      && forall i :: 0 <= i < |p.partvals| ==>
                           if i in Selected(op.tags, p) then Some(r.value.partvals[i]) == ApplyPart(op, args, pidx, i)
                           else r.value.partvals[i] == p.partvals[i]
  {
    var p := args[pidx].pv;
    var sel := Selected(op.tags, p);
    if exists i :: i in sel && i >= |p.partvals| then Err(IndexOutOfRange)
    else if exists i :: i in sel && i < |p.partvals| && ApplyPart(op, args, pidx, i).None? then Err(OperationFailed)
    else Ok(Parts(p, seq(|p.partvals|, i requires 0 <= i < |p.partvals| =>
                           if i in sel then ApplyPart(op, args, pidx, i).value else p.partvals[i])))
  }

  /** The per-part loop as the source runs it: over the selected indices in
      whatever order the set yields them, writing into a copy of the part
      list.  It succeeds exactly when the reference definition does, with
      the same outcome; only which fault it raises may depend on the order. */
  method ApplyToSelectedParts<V>(op: Operator<V>, args: seq<Collected<V>>, pidx: nat)
      returns (r: Result<Outcome<V>>)
    requires pidx < |args| && args[pidx].Parted?
    ensures r.Err? <==> EvaluatePartition(op, args, pidx).Err?
    ensures r.Ok? ==> r == EvaluatePartition(op, args, pidx)
  {
    var p := args[pidx].pv;
    var partvals := p.partvals;
    var idxlist := SelectIndices(op.tags, p);
    ghost var sel := Selected(op.tags, p);
    var rest := idxlist;
    ghost var done: set<nat> := {};
    while rest != {}
      invariant rest + done == sel && rest !! done
      invariant |partvals| == |p.partvals|
      invariant forall i :: i in done ==> i < |partvals| && Some(partvals[i]) == ApplyPart(op, args, pidx, i)
      invariant forall i :: 0 <= i < |partvals| && i !in done ==> partvals[i] == p.partvals[i]
      decreases rest
    {
      var idx :| idx in rest;
      if idx >= |partvals| {
        assert idx in sel;
        return Err(IndexOutOfRange);
      }
      var argvals := Substituted(args, pidx, partvals[idx]);
      var res := op.operation(argvals);
      if res.None? {
        assert ApplyPart(op, args, pidx, idx).None?;
        return Err(OperationFailed);
      }
      partvals := partvals[idx := res.value];
      done := done + {idx};
      rest := rest - {idx};
    }
    r := Ok(Parts(p, partvals));
    assert forall i :: i in sel ==> i < |p.partvals|;
    assert forall i :: i in sel && i < |p.partvals| ==> ApplyPart(op, args, pidx, i).Some?;
    var spec := EvaluatePartition(op, args, pidx);
    assert spec.Ok?;
    assert spec.value.partvals == partvals;
  }

  /** Helper.evaluate: the case split on the number of partition arguments. */
  function Evaluate<V>(op: Operator<V>, args: seq<Collected<V>>): (r: Result<Outcome<V>>)
    ensures |PartIndices(args)| != 1 && r.Ok? ==> r.value.Value?
  {
    var parts := PartIndices(args);
    if |parts| == 1 then EvaluatePartition(op, args, parts[0])
    else EvaluateArgument(op, Reduced(args))
  }

  /** A partition-shaped outcome comes only from exactly one partition
      argument: its source is that partition and it has as many parts. */
  lemma PartsOutcomeFromSinglePartition<V>(op: Operator<V>, args: seq<Collected<V>>)
    requires Evaluate(op, args).Ok? && Evaluate(op, args).value.Parts?
    ensures var o := Evaluate(op, args).value;
            && |PartIndices(args)| == 1
            && args[PartIndices(args)[0]] == Parted(o.src)
            && |o.partvals| == |o.src.partvals|
  {
  }

  /** Helper.combine: reduce a partition-shaped outcome with its source's
      combine; a plain outcome is left alone. */
  function CombineOutcome<V>(o: Outcome<V>): (r: Outcome<V>)
    ensures r.Value?
    ensures o.Value? ==> r == o
  {
    match o
    case Value(_) => o
    case Parts(src, pv) => Value(src.combine(pv))
  }

  /** The combination decision after evaluating an operator: reduce when it
      was the traversal root or may combine, otherwise let the outcome
      propagate upward unchanged. */
  function Finish<V>(op: Operator<V>, wasRoot: bool, o: Outcome<V>): (r: Outcome<V>)
    ensures wasRoot || op.canCombine ==> r.Value?
    ensures (wasRoot || op.canCombine) && o.Parts? ==> r == Value(o.src.combine(o.partvals))
    ensures !(wasRoot || op.canCombine) ==> r == o
    ensures o.Value? ==> r == o
  {
    if wasRoot || op.canCombine then CombineOutcome(o) else o
  }

  // The rules, stated over arbitrary operators and arguments.

  /** No partition arguments: the operation is applied once to the argument
      values in their positional order, and the outcome is plain. */
  lemma {:induction false} NoPartitionsAppliesOnce<V>(op: Operator<V>, args: seq<Collected<V>>, vals: seq<V>)
    requires |args| == |vals|
    requires forall i :: 0 <= i < |args| ==> args[i] == Plain(vals[i])
    ensures op.operation(vals).Some? ==> Evaluate(op, args) == Ok(Value(op.operation(vals).value))
    ensures op.operation(vals).None? ==> Evaluate(op, args) == Err(OperationFailed)
  {
    NoPartitionsFound(args);
    assert Reduced(args) == vals;
  }

  /** One partition argument and an operator without tags: every part is
      transformed; part `i` becomes the operation applied to the argument
      list holding that part's original value in the partition's slot and
      every other argument unchanged.  The source partition is untouched and
      the new part list has its length. */
  lemma OnePartitionNoTagsTransformsAll<V>(op: Operator<V>, args: seq<Collected<V>>, pidx: nat)
    requires pidx < |args| && args[pidx].Parted?
    requires forall i :: 0 <= i < |args| && i != pidx ==> args[i].Plain?
    requires op.tags == {}
    ensures var p := args[pidx].pv;
            var r := Evaluate(op, args);
            && (r.Ok? <==> forall i :: 0 <= i < |p.partvals| ==> ApplyPart(op, args, pidx, i).Some?)
            && (r.Err? ==> r.fault == OperationFailed)
            && (r.Ok? ==> && r.value.Parts? && r.value.src == p
                          && |r.value.partvals| == |p.partvals|
                          && forall i :: 0 <= i < |p.partvals| ==>
                               Some(r.value.partvals[i]) == ApplyPart(op, args, pidx, i))
  {
    SinglePartitionFound(args, pidx);
    var p := args[pidx].pv;
    var sel := Selected(op.tags, p);
    assert forall i: nat :: i in sel <==> i < |p.partvals|;
  }

  /** One partition argument and a tagged operator over a well-formed
      partition: a part is transformed exactly when one of the operator's
      tags maps to its index (tags missing from the tag map select nothing);
      every other part is passed through unchanged. */
  lemma OnePartitionTaggedTransformsSelected<V>(op: Operator<V>, args: seq<Collected<V>>, pidx: nat)
    requires pidx < |args| && args[pidx].Parted?
    requires forall i :: 0 <= i < |args| && i != pidx ==> args[i].Plain?
    requires op.tags != {}
    requires WellFormed(args[pidx].pv)
    ensures var p := args[pidx].pv;
            var r := Evaluate(op, args);
            && (r.Ok? <==> forall i :: 0 <= i < |p.partvals| && Tagged(i, op.tags, p.tagmap) ==>
                                  ApplyPart(op, args, pidx, i).Some?)
            && (r.Ok? ==> && r.value.Parts? && r.value.src == p
                          && |r.value.partvals| == |p.partvals|
                          && (forall i :: 0 <= i < |p.partvals| && Tagged(i, op.tags, p.tagmap) ==>
                                Some(r.value.partvals[i]) == ApplyPart(op, args, pidx, i))
                          && (forall i :: 0 <= i < |p.partvals| && !Tagged(i, op.tags, p.tagmap) ==>
                                r.value.partvals[i] == p.partvals[i]))
  {
    SinglePartitionFound(args, pidx);
    var p := args[pidx].pv;
    var sel := Selected(op.tags, p);
    assert forall i: nat :: i in sel <==> Tagged(i, op.tags, p.tagmap);
    assert forall i :: i in sel ==> i < |p.partvals|;
  }

  /** One partition argument and tags none of which selects a part: the
      outcome is the source partition with its part list exactly as it was. */
  lemma OnePartitionNoMatchIsIdentity<V>(op: Operator<V>, args: seq<Collected<V>>, pidx: nat)
    requires pidx < |args| && args[pidx].Parted?
    requires forall i :: 0 <= i < |args| && i != pidx ==> args[i].Plain?
    requires op.tags != {}
    requires forall t :: t in op.tags && t in args[pidx].pv.tagmap ==> args[pidx].pv.tagmap[t] == {}
    ensures Evaluate(op, args) == Ok(Parts(args[pidx].pv, args[pidx].pv.partvals))
  {
    SinglePartitionFound(args, pidx);
    var p := args[pidx].pv;
    var sel := Selected(op.tags, p);
    assert sel == {};
    var r := Evaluate(op, args);
    assert r.Ok?;
    assert r.value.partvals == p.partvals;
  }

  /** A tag that selects an index past the end of the part list makes the
      evaluation raise. */
  lemma OnePartitionBadIndexRaises<V>(op: Operator<V>, args: seq<Collected<V>>, pidx: nat, t: Tag, i: nat)
    requires pidx < |args| && args[pidx].Parted?
    requires forall j :: 0 <= j < |args| && j != pidx ==> args[j].Plain?
    requires t in op.tags && t in args[pidx].pv.tagmap && i in args[pidx].pv.tagmap[t]
    requires i >= |args[pidx].pv.partvals|
    ensures Evaluate(op, args) == Err(IndexOutOfRange)
  {
    SinglePartitionFound(args, pidx);
    assert i in Selected(op.tags, args[pidx].pv);
  }

  /** Two or more partition arguments: each is replaced by its own combine
      of its part values, the operation is applied once, and no partition is
      held afterwards. */
  lemma SeveralPartitionsReduceFirst<V>(op: Operator<V>, args: seq<Collected<V>>, i: nat, j: nat)
    requires i < j < |args| && args[i].Parted? && args[j].Parted?
    ensures var vals := Reduced(args);
            && (forall k :: 0 <= k < |args| && args[k].Parted? ==>
                  vals[k] == args[k].pv.combine(args[k].pv.partvals))
            && (forall k :: 0 <= k < |args| && args[k].Plain? ==> vals[k] == args[k].v)
            && Evaluate(op, args) == EvaluateArgument(op, vals)
            && (Evaluate(op, args).Ok? ==> Evaluate(op, args).value.Value?)
  {
    SeveralPartitionsFound(args, i, j);
  }

  // The combine operator, evaluated through the helper.

  /** The combine operator passes a plain argument through unchanged. */
  lemma CombineOperatorPassesPlain<V>(id: nat, clicker: nat, wasRoot: bool, v: V)
    ensures var op := Operators.CombineOperator<V>(id, clicker);
            Evaluate(op, [Plain(v)]).Ok? &&
            Finish(op, wasRoot, Evaluate(op, [Plain(v)]).value) == Value(v)
  {
    var op := Operators.CombineOperator<V>(id, clicker);
    NoPartitionsAppliesOnce(op, [Plain(v)], [v]);
  }

  /** The combine operator always reduces a partition argument with the
      partition's own combine, whether or not it is at the root. */
  lemma CombineOperatorReducesPartition<V>(id: nat, clicker: nat, wasRoot: bool, p: PartView<V>)
    ensures var op := Operators.CombineOperator<V>(id, clicker);
            Evaluate(op, [Parted(p)]) == Ok(Parts(p, p.partvals)) &&
            Finish(op, wasRoot, Evaluate(op, [Parted(p)]).value) == Value(p.combine(p.partvals))
  {
    var op := Operators.CombineOperator<V>(id, clicker);
    var args := [Parted(p)];
    OnePartitionNoTagsTransformsAll(op, args, 0);
    forall i | 0 <= i < |p.partvals|
      ensures ApplyPart(op, args, 0, i) == Some(p.partvals[i])
    {
      assert Substituted(args, 0, p.partvals[i]) == [p.partvals[i]];
    }
    var r := Evaluate(op, args);
    assert r.Ok?;
    assert r.value.partvals == p.partvals;
  }

  // A three-part example partition: parts 10, 20, 30,
  // tag "a" on parts 0 and 1, tag "b" on part 2; the operation adds one.

  function Increment(xs: seq<int>): Option<int> {
    if |xs| == 1 then Some(xs[0] + 1) else None
  }

  function IncrementWithTags(tags: set<Tag>): Operator<int> {
    Operator(0, 1, 1, Increment, tags, false, [], 0)
  }

  /** Tag "b" increments part 2 only. */
  lemma TagSelectsOnePart(combine: seq<int> -> int)
    ensures var p := Operators.ThreeParts(combine);
            Evaluate(IncrementWithTags({"b"}), [Parted(p)]) == Ok(Parts(p, [10, 20, 31]))
  {
    var p := Operators.ThreeParts(combine);
    var op := IncrementWithTags({"b"});
    OnePartitionTaggedTransformsSelected(op, [Parted(p)], 0);
    assert Tagged(2, op.tags, p.tagmap);
    assert !Tagged(0, op.tags, p.tagmap) && !Tagged(1, op.tags, p.tagmap);
    assert Substituted([Parted(p)], 0, 30) == [30];
    var r := Evaluate(op, [Parted(p)]);
    assert r.Ok?;
    assert r.value.partvals == [10, 20, 31];
  }

  /** No tags: every part is incremented. */
  lemma NoTagsIncrementsAll(combine: seq<int> -> int)
    ensures var p := Operators.ThreeParts(combine);
            Evaluate(IncrementWithTags({}), [Parted(p)]) == Ok(Parts(p, [11, 21, 31]))
  {
    var p := Operators.ThreeParts(combine);
    var op := IncrementWithTags({});
    OnePartitionNoTagsTransformsAll(op, [Parted(p)], 0);
    assert Substituted([Parted(p)], 0, 10) == [10];
    assert Substituted([Parted(p)], 0, 20) == [20];
    assert Substituted([Parted(p)], 0, 30) == [30];
    var r := Evaluate(op, [Parted(p)]);
    assert r.Ok?;
    assert r.value.partvals == [11, 21, 31];
  }

  /** Tag "c", absent from the tag map: nothing changes. */
  lemma AbsentTagChangesNothing(combine: seq<int> -> int)
    ensures var p := Operators.ThreeParts(combine);
            Evaluate(IncrementWithTags({"c"}), [Parted(p)]) == Ok(Parts(p, [10, 20, 30]))
  {
    var p := Operators.ThreeParts(combine);
    OnePartitionNoMatchIsIdentity(IncrementWithTags({"c"}), [Parted(p)], 0);
  }

  /** Two partitions added: each is combined first, the sum is plain. */
  lemma TwoPartitionsAddCombined(p: PartView<int>, q: PartView<int>)
    ensures var add := Operator(0, 2, 1, (xs: seq<int>) => if |xs| == 2 then Some(xs[0] + xs[1]) else None,
                                {}, false, [], 0);
            Evaluate(add, [Parted(p), Parted(q)]) == Ok(Value(p.combine(p.partvals) + q.combine(q.partvals)))
  {
    var add := Operator(0, 2, 1, (xs: seq<int>) => if |xs| == 2 then Some(xs[0] + xs[1]) else None,
                        {}, false, [], 0);
    SeveralPartitionsReduceFirst(add, [Parted(p), Parted(q)], 0, 1);
  }
}

=== FILE: literals.dfy ===
/** The nodes of an equation tree and their effective versions.

    A tree is built from Arguments (leaf values), Partitions, Generators and
    Operators.  Operators and the nodes they hold are mutually recursive, so
    both datatypes live here; the operations on operators are in module
    Operators.  An operator's cached proxy is not a field: proxies live in an
    arena indexed by the operator's `id` (module Proxies).
 */
module Literals {
  import opened Results
  import opened Partitions
  import Clickers

  /** A node of an equation tree.  `version` is the local number of the
      node's clicker.  A Generator is seen through the literal its opaque
      `generate` step leaves behind; its own clicker is opaque as well. */
  datatype Node<!V> =
    | Arg(value: V, version: nat)
    | Part(view: PartView<V>, version: nat)
    | Gen(version: nat, literal: Node<V>)
    | Op(op: Operator<V>)

  /** An operator: ordered arguments, arity `nin` (negative for variadic),
      output count `nout`, the operation (None when the call raises), the
      selector tags, the may-combine flag and its clicker's own number.
      `id` names the operator's slot in the proxy arena. */
  datatype Operator<!V> = Operator(
    id: nat,
    nin: int,
    nout: int,
    operation: seq<V> -> Option<V>,
    tags: set<Tag>,
    canCombine: bool,
    args: seq<Node<V>>,
    clicker: nat)

  /** The effective version of a node's clicker.  An operator registers the
      clicker of every argument as a subject, so its effective version is
      the maximum of its own number and its arguments' effective versions;
      every other node has no subjects the evaluator can see. */
  function Version<V>(n: Node<V>): nat
    decreases n
  {
    match n
    case Op(op) => OpVersion(op)
    case _ => n.version
  }

  function OpVersion<V>(op: Operator<V>): nat
    decreases op
  {
    Clickers.Effective(op.clicker, ArgVersions(op.args))
  }

  function ArgVersions<V>(args: seq<Node<V>>): (r: seq<nat>)
    ensures |r| == |args|
    decreases args
  {
    seq(|args|, i requires 0 <= i < |args| => Version(args[i]))
  }

  /** An operator is never older than any of its arguments, nor than its
      own clicker. */
  lemma OpVersionBoundsArgs<V>(op: Operator<V>)
    ensures OpVersion(op) >= op.clicker
    ensures forall i :: 0 <= i < |op.args| ==> OpVersion(op) >= Version(op.args[i])
  {
    var vs := ArgVersions(op.args);
    assert forall i :: 0 <= i < |op.args| ==> vs[i] == Version(op.args[i]);
  }

  /** `target` is reached from `op` through a chain of operator arguments. */
  ghost predicate Descends<V>(op: Operator<V>, target: Operator<V>)
    decreases op
  {
    exists i :: 0 <= i < |op.args| && op.args[i].Op? &&
      (op.args[i].op == target || Descends(op.args[i].op, target))
  }

  /** A change anywhere below an operator, through operator arguments, makes
      that operator at least as new: the operator's effective version bounds
      the effective version of every operator it descends to. */
  lemma {:induction false} DescendantVersionBounded<V>(op: Operator<V>, target: Operator<V>)
    requires Descends(op, target)
    ensures OpVersion(op) >= OpVersion(target)
    decreases op
  {
    var i :| 0 <= i < |op.args| && op.args[i].Op? &&
      (op.args[i].op == target || Descends(op.args[i].op, target));
    OpVersionBoundsArgs(op);
    assert OpVersion(op) >= Version(op.args[i]);
    if op.args[i].op != target {
      DescendantVersionBounded(op.args[i].op, target);
    }
  }

  /** Every clicker number in the tree has been handed out by a counter
      whose newest version is `last`. */
  ghost predicate Issued<V>(n: Node<V>, last: nat)
    decreases n
  {
    match n
    case Arg(_, version) => version <= last
    case Part(_, version) => version <= last
    case Gen(version, literal) => version <= last && Issued(literal, last)
    case Op(op) => op.clicker <= last && forall i :: 0 <= i < |op.args| ==> Issued(op.args[i], last)
  }

  /** No effective version exceeds the newest version handed out. */
  lemma {:induction false} IssuedBound<V>(n: Node<V>, last: nat)
    requires Issued(n, last)
    ensures Version(n) <= last
    decreases n
  {
    if n.Op? {
      var op := n.op;
      var vs := ArgVersions(op.args);
      forall i | 0 <= i < |op.args|
        ensures vs[i] <= last
      {
        IssuedBound(op.args[i], last);
      }
    }
  }
}

=== FILE: operators.dfy ===
/** Operator construction, the operator mutators, and the settings of the
    library operators the engine treats specially.

    The mutators that invalidate the cached proxy remove the operator's arena
    slot and click its clicker with the process-wide counter, so they take
    and return both.  The numeric library functions (numpy) stay opaque:
    they are parameters.
 */
module Operators {
  import opened Results
  import opened Partitions
  import opened Literals
  import opened Proxies
  import opened Clickers

  /** An operator after a mutation, with the arena and counter after it. */
  datatype Mutated<!V> = Mutated(op: Operator<V>, arena: Arena<V>, counter: Counter)

  /** A new operator: no arguments, the given tags as a set, may-combine off,
      no proxy; two inputs and one output unless told otherwise.  `clicker` is
      the number of the fresh clicker the literal is created with. */
  function NewOperator<V>(id: nat, clicker: nat, operation: seq<V> -> Option<V>,
                          nin: int := 2, nout: int := 1, tags: seq<Tag> := []): (r: Operator<V>)
    ensures r.args == [] && !r.canCombine
    ensures r.nin == nin && r.nout == nout && r.operation == operation
    ensures forall t :: t in r.tags <==> t in tags
    ensures r.id == id && r.clicker == clicker
    ensures OpVersion(r) == clicker
  {
    Operator(id, nin, nout, operation, set t | t in tags, false, [], clicker)
  }

  /** The constructor's defaults: two inputs, one output, no tags. */
  lemma NewOperatorDefaults<V>(id: nat, clicker: nat, operation: seq<V> -> Option<V>)
    ensures var r := NewOperator(id, clicker, operation);
            r.nin == 2 && r.nout == 1 && r.tags == {} && r.args == [] && !r.canCombine
  {
  }

  /** Appending an argument: it becomes the rightmost argument, the earlier
      ones keep their positions, and since its clicker becomes a subject of
      the operator's clicker, the operator is at least as new as it and at
      least as new as before.  The proxy is not touched. */
  function AddLiteral<V>(op: Operator<V>, literal: Node<V>): (r: Operator<V>)
    ensures |r.args| == |op.args| + 1
    ensures r.args[|op.args|] == literal
    ensures forall i :: 0 <= i < |op.args| ==> r.args[i] == op.args[i]
    ensures r.id == op.id && r.tags == op.tags && r.canCombine == op.canCombine && r.clicker == op.clicker
    ensures r.operation == op.operation && r.nin == op.nin && r.nout == op.nout
    ensures OpVersion(r) >= Version(literal)
    ensures OpVersion(r) >= OpVersion(op)
  {
    var r := op.(args := op.args + [literal]);
    OpVersionBoundsArgs(r);
    assert ArgVersions(op.args) == ArgVersions(r.args)[..|op.args|];
    EffectiveOfPrefix(op.clicker, ArgVersions(r.args), |op.args|);
    r
  }

  /** The effective version over a prefix of the subjects never exceeds the
      effective version over all of them. */
  lemma {:induction false} EffectiveOfPrefix(local: nat, subjects: seq<nat>, n: nat)
    requires n <= |subjects|
    ensures Effective(local, subjects[..n]) <= Effective(local, subjects)
  {
    var e := Effective(local, subjects[..n]);
    if e != local {
      var i :| 0 <= i < n && e == subjects[..n][i];
      assert e == subjects[i];
    }
  }

  /** Invalidation: forget the proxy and click the clicker. */
  function Invalidate<V>(op: Operator<V>, arena: Arena<V>, counter: Counter): (r: Mutated<V>)
    ensures r.op.id == op.id && r.op.args == op.args && r.op.tags == op.tags
    ensures r.op.canCombine == op.canCombine && r.op.operation == op.operation
    ensures r.op.nin == op.nin && r.op.nout == op.nout
    ensures r.op.clicker > counter.last && r.counter.last == r.op.clicker
    ensures r.arena == arena - {op.id}
  {
    var d := Click(counter);
    Mutated(op.(clicker := d.version), arena - {op.id}, d.counter)
  }

  /** Setting the may-combine flag to its current value changes nothing;
      setting it to the other value records it, drops the proxy, and makes
      the operator newer than every version issued so far. */
  function SetCombine<V>(op: Operator<V>, arena: Arena<V>, counter: Counter, combine: bool := true): (r: Mutated<V>)
    ensures combine == op.canCombine ==> r == Mutated(op, arena, counter)
    ensures combine != op.canCombine ==>
      && r.op.canCombine == combine
      && r.op.id == op.id && r.op.args == op.args && r.op.tags == op.tags
      && r.op.operation == op.operation && r.op.nin == op.nin && r.op.nout == op.nout
      && r.arena == arena - {op.id}
      && r.op.clicker > counter.last && r.counter.last == r.op.clicker
      && OpVersion(r.op) > counter.last
  {
    if combine == op.canCombine then Mutated(op, arena, counter)
    else Invalidate(op.(canCombine := combine), arena, counter)
  }

  /** Called without a flag, `setCombine` lets the operator combine. */
  lemma SetCombineDefaultEnables<V>(op: Operator<V>, arena: Arena<V>, counter: Counter)
    ensures var r := SetCombine(op, arena, counter);
            && r.op.canCombine
            && (!op.canCombine ==> r.counter.last == r.op.clicker > counter.last)
            && (op.canCombine ==> r == Mutated(op, arena, counter))
  {
  }

  /** `addTags` as written: the tags are handed to a lazy `map`, which under
      Python 3 is never consumed, so no tag is added; the proxy is still
      dropped and the clicker clicked. */
  function AddTagsAsWritten<V>(op: Operator<V>, newTags: seq<Tag>, arena: Arena<V>, counter: Counter): (r: Mutated<V>)
    ensures r.op.tags == op.tags
    ensures r.op.id == op.id && r.op.args == op.args && r.op.canCombine == op.canCombine
    ensures r.op.operation == op.operation && r.op.nin == op.nin && r.op.nout == op.nout
    ensures r.arena == arena - {op.id} && r.op.clicker > counter.last && r.counter.last == r.op.clicker
  {
    Invalidate(op, arena, counter)
  }

  /** `addTags` as documented: the given tags join the operator's tags, the
      proxy is dropped and the clicker clicked. */
  function AddTags<V>(op: Operator<V>, newTags: seq<Tag>, arena: Arena<V>, counter: Counter): (r: Mutated<V>)
    ensures forall t :: t in r.op.tags <==> t in op.tags || t in newTags
    ensures r.op.id == op.id && r.op.args == op.args && r.op.canCombine == op.canCombine
    ensures r.op.operation == op.operation && r.op.nin == op.nin && r.op.nout == op.nout
    ensures r.arena == arena - {op.id} && r.op.clicker > counter.last && r.counter.last == r.op.clicker
  {
    Invalidate(op.(tags := op.tags + set t | t in newTags), arena, counter)
  }

  /** The partition of three parts tagged "a" (parts 0 and 1) and "b"
      (part 2). */
  function ThreeParts(combine: seq<int> -> int): PartView<int> {
    PartView([10, 20, 30], {"a", "b"}, map["a" := {0, 1}, "b" := {2}], combine)
  }

  /** As written, asking a tagless operator to act on tag "b" leaves it
      tagless, so it still acts on all three parts instead of part 2 only. */
  lemma AddTagsAsWrittenSelectsEverything(op: Operator<int>, arena: Arena<int>, counter: Counter,
                                          combine: seq<int> -> int)
    requires op.tags == {}
    ensures var r := AddTagsAsWritten(op, ["b"], arena, counter);
            Selected(r.op.tags, ThreeParts(combine)) == {0, 1, 2}
  {
    var r := AddTagsAsWritten(op, ["b"], arena, counter);
    var all := Selected(r.op.tags, ThreeParts(combine));
    assert 0 in all && 1 in all && 2 in all;
    assert forall i :: i in all ==> i < 3;
  }

  /** With tags actually added, the same request selects part 2 alone. */
  lemma AddTagsSelectsTaggedParts(op: Operator<int>, arena: Arena<int>, counter: Counter,
                                  combine: seq<int> -> int)
    requires op.tags == {}
    ensures var r := AddTags(op, ["b"], arena, counter);
            Selected(r.op.tags, ThreeParts(combine)) == {2}
  {
    var r := AddTags(op, ["b"], arena, counter);
    assert r.op.tags == {"b"};
    var p := ThreeParts(combine);
    var sel := Selected(r.op.tags, p);
    assert 2 in p.tagmap["b"];
    assert 2 in sel;
    forall i | i in sel ensures i == 2 {
      var t :| t in r.op.tags && t in p.tagmap && i in p.tagmap[t];
      assert t == "b";
    }
  }

  /** Clearing the tags leaves none, drops the proxy and clicks the clicker. */
  function ClearTags<V>(op: Operator<V>, arena: Arena<V>, counter: Counter): (r: Mutated<V>)
    ensures r.op.tags == {}
    ensures r.op.id == op.id && r.op.args == op.args && r.op.canCombine == op.canCombine
    ensures r.op.operation == op.operation && r.op.nin == op.nin && r.op.nout == op.nout
    ensures r.arena == arena - {op.id} && r.op.clicker > counter.last && r.counter.last == r.op.clicker
    ensures OpVersion(r.op) > counter.last
  {
    Invalidate(op.(tags := {}), arena, counter)
  }

  // Library operators.  Each is a parameterization of NewOperator.

  /** The identity on exactly one argument; any other argument count raises. */
  function Identity<V>(xs: seq<V>): (r: Option<V>)
    ensures r.Some? <==> |xs| == 1
    ensures r.Some? ==> r.value == xs[0]
  {
    if |xs| == 1 then Some(xs[0]) else None
  }

  /** The combine operator: one input, the identity operation, and the
      may-combine flag set. */
  function CombineOperator<V>(id: nat, clicker: nat): (r: Operator<V>)
    ensures r.nin == 1 && r.nout == 1 && r.canCombine && r.tags == {} && r.args == []
  {
    NewOperator(id, clicker, Identity).(nin := 1, canCombine := true)
  }

  /** The combine operator's operation is the identity on one argument and
      raises on any other argument count. */
  lemma CombineOperatorIsIdentity<V>(id: nat, clicker: nat, xs: seq<V>)
    ensures CombineOperator<V>(id, clicker).operation(xs) == (if |xs| == 1 then Some(xs[0]) else None)
  {
  }

  /** Negation: one input; the numeric negation is opaque. */
  function NegationOperator<V>(id: nat, clicker: nat, negative: seq<V> -> Option<V>): (r: Operator<V>)
    ensures r.nin == 1 && r.nout == 1 && !r.canCombine && r.operation == negative
  {
    NewOperator(id, clicker, negative, nin := 1)
  }

  /** Sum: one input, one output; the numeric sum is opaque. */
  function SumOperator<V>(id: nat, clicker: nat, sum: seq<V> -> Option<V>): (r: Operator<V>)
    ensures r.nin == 1 && r.nout == 1 && !r.canCombine && r.operation == sum
  {
    NewOperator(id, clicker, sum, nin := 1, nout := 1)
  }

  /** Packing into a list: variadic, and the operation hands every argument,
      in order, to `pack` (how a tuple is represented as a value). */
  function ListOperator<V>(id: nat, clicker: nat, pack: seq<V> -> V): (r: Operator<V>)
    ensures r.nin == -1 && !r.canCombine
  {
    NewOperator(id, clicker, (xs: seq<V>) => Some(pack(xs)), nin := -1)
  }

  /** A list operator never fails, whatever the argument count, and hands
      `pack` the arguments exactly as given: in order, none dropped. */
  lemma ListOperatorKeepsArguments<V>(id: nat, clicker: nat, pack: seq<V> -> V, xs: seq<V>)
    ensures ListOperator(id, clicker, pack).operation(xs) == Some(pack(xs))
  {
  }

  /** Packing into a set: variadic; only the set of the arguments matters. */
  function SetOperator<V(==)>(id: nat, clicker: nat, pack: set<V> -> V): (r: Operator<V>)
    ensures r.nin == -1 && !r.canCombine
  {
    NewOperator(id, clicker, (xs: seq<V>) => Some(pack(set x | x in xs)), nin := -1)
  }

  /** A set operator sees only which values were passed: argument lists
      with the same elements, in any order or multiplicity, give the same
      result. */
  lemma SetOperatorIgnoresOrder<V>(id: nat, clicker: nat, pack: set<V> -> V, xs: seq<V>, ys: seq<V>)
    requires forall x :: x in xs <==> x in ys
    ensures SetOperator(id, clicker, pack).operation(xs) == SetOperator(id, clicker, pack).operation(ys)
  {
    assert (set x | x in xs) == (set x | x in ys);
  }

  /** Packing into an array: variadic, arguments in order. */
  function ArrayOperator<V>(id: nat, clicker: nat, pack: seq<V> -> V): (r: Operator<V>)
    ensures r.nin == -1 && !r.canCombine
  {
    NewOperator(id, clicker, (xs: seq<V>) => Some(pack(xs)), nin := -1)
  }

  /** `ndarray.resize` to `n` elements: keep the first `n`, filling with
      `fill` (zero) when the array is shorter. */
  function Resize<T>(c: seq<T>, n: nat, fill: T): (r: seq<T>)
    ensures |r| == n
    ensures forall i :: 0 <= i < n ==> r[i] == (if i < |c| then c[i] else fill)
  {
    if |c| >= n then c[..n] else c + seq(n - |c|, _ => fill)
  }

  /** The convolution operator's operation: the scaled "same"-mode
      convolution (opaque) resized to the length of the first argument. */
  function Convolve(v1: seq<real>, v2: seq<real>, scaledSame: (seq<real>, seq<real>) -> seq<real>): (r: seq<real>)
    ensures |r| == |v1|
    ensures forall i :: 0 <= i < |r| && i < |scaledSame(v1, v2)| ==> r[i] == scaledSame(v1, v2)[i]
  {
    Resize(scaledSame(v1, v2), |v1|, 0.0)
  }

  /** The convolution operator over array values: two inputs, and its
      operation is `Convolve` of the two arguments.  Any other argument
      count raises, and so does an empty vector, which numpy's convolution
      rejects. */
  function ConvolutionOperator(id: nat, clicker: nat, scaledSame: (seq<real>, seq<real>) -> seq<real>)
      : (r: Operator<seq<real>>)
    ensures r.nin == 2 && r.nout == 1 && !r.canCombine && r.tags == {} && r.args == []
  {
    NewOperator(id, clicker,
      (xs: seq<seq<real>>) =>
        if |xs| == 2 && |xs[0]| > 0 && |xs[1]| > 0 then Some(Convolve(xs[0], xs[1], scaledSame)) else None)
  }

  /** The convolution operator succeeds exactly on two non-empty vectors, and its
      result has the length of the first one, agreeing with the scaled
      convolution wherever that is defined. */
  lemma ConvolutionKeepsFirstLength(id: nat, clicker: nat, scaledSame: (seq<real>, seq<real>) -> seq<real>,
                                    xs: seq<seq<real>>)
    ensures var r := ConvolutionOperator(id, clicker, scaledSame).operation(xs);
            && (r.Some? <==> |xs| == 2 && |xs[0]| > 0 && |xs[1]| > 0)
            && (r.Some? ==> |r.value| == |xs[0]|)
            && (r.Some? ==> forall i :: 0 <= i < |r.value| && i < |scaledSame(xs[0], xs[1])| ==>
                              r.value[i] == scaledSame(xs[0], xs[1])[i])
  {
  }
}

=== FILE: partitions.dfy ===
/** The part of a Partition the evaluator consumes.

    A partition supplies an ordered list of part values, a map from tag name
    to the set of part indices carrying that tag, the partition's own tag
    collection, and a `combine` function that reduces part values to one
    value.  How a partition refreshes its part values is not part of this
    model: a partition is seen with its part values already refreshed.
 */
module Partitions {

  type Tag = string

  /** A partition as the evaluator sees it.  The same shape is used for the
      partition-like proxy an operator caches for a partition result. */
  datatype PartView<!V> = PartView(
    partvals: seq<V>,
    tags: set<Tag>,
    tagmap: map<Tag, set<nat>>,
    combine: seq<V> -> V)

  /** The partition invariant: every tagged index is a position of the
      part list. */
  ghost predicate WellFormed<V>(p: PartView<V>) {
    forall t, i :: t in p.tagmap && i in p.tagmap[t] ==> i < |p.partvals|
  }

  /** The indices `0 .. n-1` of a part list of length `n`. */
  function AllIndices(n: nat): (r: set<nat>)
    ensures forall i: nat :: i in r <==> i < n
  {
    if n == 0 then {} else AllIndices(n - 1) + {n - 1}
  }

  /** Index `i` carries one of `opTags` according to `tagmap`; a tag that
      is missing from `tagmap` tags nothing. */
  ghost predicate Tagged(i: nat, opTags: set<Tag>, tagmap: map<Tag, set<nat>>) {
    exists t :: t in opTags && t in tagmap && i in tagmap[t]
  }

  /** The part indices an operator with tags `opTags` acts on: every index
      when it has no tags, otherwise the union of the tag map's entries for
      its tags (possibly empty). */
  function Selected<V>(opTags: set<Tag>, p: PartView<V>): set<nat> {
    if opTags == {} then AllIndices(|p.partvals|)
    else set t, i | t in opTags && t in p.tagmap && i in p.tagmap[t] :: i
  }

  /** The tag selection as the evaluator computes it: a loop over the
      operator's tags gathering each tag map entry, falling back to every
      index only when the operator has no tags at all. */
  method SelectIndices<V>(opTags: set<Tag>, p: PartView<V>) returns (idx: set<nat>)
    ensures opTags == {} ==> forall i: nat :: i in idx <==> i < |p.partvals|
    ensures opTags != {} ==> forall i: nat :: i in idx <==> Tagged(i, opTags, p.tagmap)
    ensures idx == Selected(opTags, p)
  {
    idx := {};
    var rest := opTags;
    while rest != {}
      invariant rest <= opTags
      invariant forall i: nat :: i in idx <==> Tagged(i, opTags - rest, p.tagmap)
      decreases rest
    {
      var t :| t in rest;
      if t in p.tagmap {
        idx := idx + p.tagmap[t];
      }
      rest := rest - {t};
    }
    if idx == {} {
      if opTags == {} {
        idx := AllIndices(|p.partvals|);
      } else {
        idx := {};
      }
    }
  }
}

=== FILE: proxies.dfy ===
/** The result proxies operators cache, kept in an arena indexed by
    operator id instead of an object attribute.

    In parts mode a proxy is either an Argument holding a plain value or a
    pseudo-partition holding part values with the source partition's
    combine function, tags and tag map.  The no-partition evaluator stores
    the bare value.  A missing arena entry is a `_proxy` of None.
 */
module Proxies {
  import opened Results
  import opened Partitions

  datatype Slot<!V> =
    | Raw(raw: V)                 // bare value cached by the no-partition evaluator
    | ArgProxy(value: V)          // an Argument proxy
    | PseudoPart(view: PartView<V>)  // a pseudo-partition proxy

  type Arena<!V> = map<nat, Slot<V>>

  /** What the evaluation helper records for one argument. */
  datatype Collected<!V> = Plain(v: V) | Parted(pv: PartView<V>)

  /** What the evaluation helper holds after evaluating an operator: a plain
      value, or the source partition together with updated part values. */
  datatype Outcome<!V> = Value(v: V) | Parts(src: PartView<V>, partvals: seq<V>)

  /** A partition-shaped outcome as a partition: the source's tags, tag map
      and combine with the updated part values. */
  function AsPartition<V>(src: PartView<V>, partvals: seq<V>): (r: PartView<V>)
    ensures r.partvals == partvals
    ensures r.tags == src.tags && r.tagmap == src.tagmap && r.combine == src.combine
  {
    src.(partvals := partvals)
  }

  /** How an outcome looks to the helper of an enclosing operator. */
  function Observed<V>(o: Outcome<V>): Collected<V> {
    match o
    case Value(v) => Plain(v)
    case Parts(src, pv) => Parted(AsPartition(src, pv))
  }

  /** How a cached proxy identifies itself to the helper of an enclosing
      operator; a bare value has no `identify` and reads as None. */
  function ReadSlot<V>(s: Slot<V>): Option<Collected<V>> {
    match s
    case Raw(_) => None
    case ArgProxy(v) => Some(Plain(v))
    case PseudoPart(pv) => Some(Parted(pv))
  }

  /** The proxy slot holding an outcome: an Argument proxy for a plain value,
      a pseudo-partition for a partition-shaped one. */
  function SlotOf<V>(o: Outcome<V>): (r: Slot<V>)
    ensures ReadSlot(r) == Some(Observed(o))
  {
    match o
    case Value(v) => ArgProxy(v)
    case Parts(src, pv) => PseudoPart(AsPartition(src, pv))
  }

  /** Caching an outcome for operator `id`, replacing whatever the slot held
      by a proxy of the outcome's own shape.  An enclosing operator then
      reads back exactly the outcome, and no other operator's proxy moves. */
  function Store<V>(arena: Arena<V>, id: nat, o: Outcome<V>): (r: Arena<V>)
    ensures id in r && ReadSlot(r[id]) == Some(Observed(o))
    ensures r.Keys == arena.Keys + {id}
    ensures forall k :: k in arena && k != id ==> r[k] == arena[k]
  {
    arena[id := SlotOf(o)]
  }

  /** The proxy update as written in the source: allocate only when the
      slot is empty, otherwise assign the outcome's attributes onto the
      existing object, whose class (Argument or pseudo-partition) decides
      how it will identify itself.  Attributes assigned onto an object of
      the other class are never read, so its observable contents stay as
      they were.  Assigning attributes onto a bare value raises. */
  function OverwriteInPlace<V>(arena: Arena<V>, id: nat, o: Outcome<V>): (r: Option<Arena<V>>)
    ensures id !in arena ==> r == Some(Store(arena, id, o))
    ensures r.Some? ==> r.value.Keys == arena.Keys + {id}
    ensures r.Some? ==> forall k :: k in arena && k != id ==> r.value[k] == arena[k]
  {
    if id !in arena then Some(Store(arena, id, o))
    else match (arena[id], o)
      case (Raw(_), _) => None
      case (ArgProxy(_), Value(v)) => Some(arena[id := ArgProxy(v)])
      case (ArgProxy(_), Parts(_, _)) => Some(arena)
      case (PseudoPart(_), Parts(src, pv)) => Some(arena[id := PseudoPart(AsPartition(src, pv))])
      case (PseudoPart(_), Value(_)) => Some(arena)
  }

  /** The in-place update loses a partition result: an operator whose proxy
      is an Argument holding 1 (cached while it was the traversal root) and
      that now yields the part values [5] keeps presenting the plain, stale
      value 1 to its enclosing operator. */
  lemma InPlaceOverwriteHidesPartition(combine: seq<int> -> int)
    ensures var src := PartView([2], {}, map[], combine);
            var o := Parts(src, [5]);
            var r := OverwriteInPlace(map[0 := ArgProxy(1)], 0, o);
            r.Some? && ReadSlot(r.value[0]) == Some(Plain(1)) &&
            ReadSlot(r.value[0]) != Some(Observed(o))
  {
  }

  /** The reverse direction: a pseudo-partition proxy handed a plain result
      keeps presenting its old parts. */
  lemma InPlaceOverwriteHidesValue(combine: seq<int> -> int)
    ensures var old_ := PartView([2], {}, map[], combine);
            var r := OverwriteInPlace(map[0 := PseudoPart(old_)], 0, Value(7));
            r.Some? && ReadSlot(r.value[0]) == Some(Parted(old_)) &&
            ReadSlot(r.value[0]) != Some(Observed(Value(7)))
  {
  }

  /** Where the shape does not change, the in-place update agrees with
      `Store`. */
  lemma InPlaceAgreesWhenShapeKept<V>(arena: Arena<V>, id: nat, o: Outcome<V>)
    requires id in arena
    requires (arena[id].ArgProxy? && o.Value?) || (arena[id].PseudoPart? && o.Parts?)
    ensures OverwriteInPlace(arena, id, o) == Some(Store(arena, id, o))
  {
  }
}

=== FILE: results.dfy ===
/** Failure-compatible wrappers used by the evaluation engine.

    The engine has no error type of its own: whatever the Python code raises
    simply propagates to the caller of the traversal.  The model names the
    few ways a traversal can raise so that contracts can talk about them.
 */
module Results {

  /** An optional value; `None` is also how an operation reports that the
      call raised (for example the identity lambda given two arguments). */
  datatype Option<+T> = None | Some(value: T)

  /** The ways a traversal of the model can raise. */
  datatype Fault =
    | ProxyNotIdentifiable  // an operator argument whose `_proxy` is None or a bare value
    | OperationFailed       // the operator's `operation` raised
    | IndexOutOfRange       // a tag selected a part index outside the part list
    | NoPlainValue          // the no-partition evaluator found no plain value cached

  /** Success or the fault that was raised. */
  datatype Result<+T> = Ok(value: T) | Err(fault: Fault) {

    predicate IsFailure() {
      Err?
    }

    function PropagateFailure<U>(): Result<U>
      requires Err?
    {
      Err(fault)
    }

    function Extract(): T
      requires Ok?
    {
      value
    }
  }
}
